=== FILE: README.md ===
# Page exchange: queue, client pull API and producer buffer

This project models the consumer side of Velox's pull-based page exchange,
together with the byte accounting of the producer's output buffer:

- **Pages** (`pages.dfy`). A page is its size in bytes. `IsBatch` says which
  FIFO prefix one pull under a byte limit takes: pages are never split, the
  first queued page is always taken (even when it alone exceeds the limit),
  a batch of two or more pages stays within the limit, and the pull stops
  only at the end of the queue or before the page that would cross the
  limit. `BatchLength` computes that prefix.
- **Continuations** (`continuations.dfy`). A continuation is either none or
  a pending token. The tokens still waiting are kept in a strictly
  increasing list below the next fresh token, so two waiters never share a
  token.
- **ExchangeQueue** (`exchange_queue.dfy`). The queue holds:
  - the pages in arrival order;
  - the number of registered sources and whether more may come;
  - the number of end markers received;
  - a closed flag;
  - the tokens of waiting consumers;
  - the statistics: bytes queued, peak bytes, data pages received and
    bytes received.

  Its operations are `AddSource`, `NoMoreSources`, `Enqueue` of a data page
  or an end marker, `Next(maxBytes)`, `Close` and `GetStats`. No waiting
  consumer is ever dropped without being resumed (`NoLostWakeup`). Runs of
  deliveries (`DeliverAll`), runs of pulls (`DrainAll`) and interleavings of
  both (`Run`) are modelled so that properties over whole test runs can be
  stated.
- **ExchangeClient** (`exchange_client.dfy`). The client owns a queue and
  the set of remote task ids it fetches from. Its operations are:
  - `AddRemoteTaskId`, including the failure message built when creating a
    fetch source throws;
  - `NoMoreRemoteTasks`;
  - `Next`, `Close` and `Stats`.
- **OutputBuffer** (`output_buffer.dfy`). The producer's buffer holds pages
  per destination against a byte ceiling shared by all destinations. It
  supports `Enqueue`, `Fetch`, `Acknowledge`, `NoMoreData` and `RemoveTask`,
  and reports `Utilization` as an exact fraction.
- **LocalSource** (`local_source.dfy`). An in-process fetch source. One
  round reads a batch from the buffer and pushes it into the client's queue
  (with the end marker once the producer has finished). It then
  acknowledges what it read, which frees the buffer's bytes and releases
  suspended producers.
- **Scenarios** (`scenarios.dfy`, `acknowledge_scenario.dfy`). Tests of
  `velox/exec/tests/ExchangeClientTest.cpp` are replayed over the model as
  methods or lemmas whose postconditions are what the tests assert:
  - `nonVeloxCreateExchangeSourceException`, `multiPageFetch` and
    `callNextAfterClose` are replayed in full;
  - `stats` and `largeSinglePage` are replayed on the consumer side only.
    They start from their pages already in the client's queue. The
    producer's enqueue into the output buffer
    (`ExchangeClientTest.cpp:190-196`, `:270-272`) and the source's transfer
    of the pages are not replayed. `stats` is replayed with every push before
    any pull. The interleavings its comment allows
    (`ExchangeClientTest.cpp:202-204`) are covered by
    `ExchangeQueue.StatsOfRun`, which holds for any mix of pushes and pulls;
  - `sourceTimeout` is replayed without its wait for every source to time
    out: the pulls, the ten pages and the end markers are;
  - `acknowledge` is replayed without its count of explicit acknowledge
    requests;
  - `flowControl` is not replayed (see "Left out").

The implementation headers of the queue, the client and the output buffer
manager are not part of this model. The behaviour is pinned by the helpers
and assertions of the test file.

A `Seen` value records what a test observes of one pull:
- the number of pages;
- `atEnd`;
- whether a continuation was handed back.

A pull that hands back no continuation leaves the caller's future
untouched. A future created with `makeEmpty()` then stays invalid. A
default-constructed future is already ready. Both cases appear in the tests.

## Model

All source paths are in `velox/exec/tests/ExchangeClientTest.cpp`, written
in full in each row.

| member | source | states |
|---|---|---|
| Pages.BatchLength | velox/exec/tests/ExchangeClientTest.cpp:303-326 | the number of pages one pull takes satisfies `IsBatch`: whole pages only, at least one when any is queued, within the limit when two or more, and stopping before the page that would cross the limit |
| Pages.BatchUnique | velox/exec/tests/ExchangeClientTest.cpp:310-326 | at most one prefix length satisfies `IsBatch`, so the batch a pull returns is determined by the queue and the limit |
| ExchangeQueue.Empty | velox/exec/tests/ExchangeClientTest.cpp:287-297 | a new queue is valid, has no pages, no waiting consumers, no statistics, and is not at end |
| ExchangeQueue.AddSource | velox/exec/tests/ExchangeClientTest.cpp:113-121 | registering a source succeeds exactly while more sources may still come, and changes nothing but the source count |
| ExchangeQueue.NoMoreSources | velox/exec/tests/ExchangeClientTest.cpp:113-121 | after declaring the sources complete, the stream is over exactly when every registered source has ended; if so every waiting consumer is resumed, otherwise nobody and the waiters keep waiting; pages, source and end-marker counts, the closed flag and the statistics are kept |
| ExchangeQueue.Enqueue | velox/exec/tests/ExchangeClientTest.cpp:123-134 | a data page goes to the back, is counted in the statistics (peak raised to the new total if higher) and resumes all waiting consumers; an end marker counts one finished source and resumes them only when it ends the stream; a closed queue drops the delivery; no waiter is lost |
| ExchangeQueue.Next | velox/exec/tests/ExchangeClientTest.cpp:287-337 | a closed queue returns nothing, at end, without continuation; otherwise the batch is an `IsBatch` prefix and the rest stays queued; at end exactly when every source has ended and nothing is left; a fresh pending token exactly when the result is empty and not at end; statistics unchanged |
| ExchangeQueue.Close | velox/exec/tests/ExchangeClientTest.cpp:451-462 | closing drops the queued pages, marks the queue closed, and resumes exactly the consumers that were waiting; the statistics survive |
| ExchangeQueue.GetStats | velox/exec/tests/ExchangeClientTest.cpp:201-207 | the page count is the data pages received, the average is received bytes over that count rounded down (zero before any page), and the peak never exceeds the bytes received |
| ExchangeQueue.DeliverAll | velox/exec/tests/ExchangeClientTest.cpp:303-305 | a run of deliveries appends exactly its data pages in order, counts only data pages as received, counts each end marker once, never lowers the peak, and loses no waiter |
| ExchangeQueue.DrainAll | velox/exec/tests/ExchangeClientTest.cpp:307-326 | successive pulls hand out every page exactly once and in arrival order: what they delivered followed by what is left equals what was queued |
| ExchangeQueue.RunConcat | velox/exec/tests/ExchangeClientTest.cpp:191-199 | running two sequences of pushes and pulls one after the other equals running them together |
| ExchangeQueue.RunCountsDataPages | velox/exec/tests/ExchangeClientTest.cpp:191-207 | over any interleaving of pushes and pulls, received pages and bytes grow by exactly the data pages pushed, and the peak never falls |
| ExchangeQueue.StatsOfRun | velox/exec/tests/ExchangeClientTest.cpp:191-207 | for a fresh queue and any interleaving, the page count is the number of data pages pushed, the average is their total over their number rounded down, and the peak lies between the bytes queued at any point and the total pushed |
| ExchangeQueue.PeakAboveEveryPoint | velox/exec/tests/ExchangeClientTest.cpp:201-205 | the peak at the end of a run is at least the bytes queued at every intermediate point |
| ExchangeQueue.RunKeepsPeak | velox/exec/tests/ExchangeClientTest.cpp:201-205 | no push or pull lowers the peak |
| ExchangeQueue.PendingResumedByNextPage | velox/exec/tests/ExchangeClientTest.cpp:123-134 | a consumer told to wait is among those resumed by the next data page |
| ExchangeQueue.CloseIdempotent | velox/exec/tests/ExchangeClientTest.cpp:452-462 | closing a closed queue changes nothing and resumes nobody |
| ExchangeQueue.NextAfterClose | velox/exec/tests/ExchangeClientTest.cpp:451-460 | after close every pull returns no pages, at end, without continuation, whatever was queued |
| ExchangeQueue.NotAtEndWhilePagesRemain | velox/exec/tests/ExchangeClientTest.cpp:322-334 | a pull that reports the end took every queued page and found every source ended |
| ExchangeClient.Create | velox/exec/tests/ExchangeClientTest.cpp:287-297 | a new client is open, valid, with no task ids, no sources and no pages |
| ExchangeClient.DisplayedTaskId | velox/exec/tests/ExchangeClientTest.cpp:164-168 | the task id shown in an error is a prefix of the id of at most 128 characters: the whole id when short, exactly 128 characters otherwise |
| ExchangeClient.CreateFailureMessage | velox/exec/tests/ExchangeClientTest.cpp:160-168 | the message starts with "Failed to create ExchangeSource: ", the error text and ". Task ID: ", continues with the displayed id, and ends with "." |
| ExchangeClient.AddRemoteTaskId | velox/exec/tests/ExchangeClientTest.cpp:150-168 | a known id is a no-op; an engine error passes through unchanged; any other creation error fails with the formatted message; a created source is refused once no more sources may come, and otherwise the id is recorded and the queue is unchanged except for one more source (none when the client is closed) |
| ExchangeClient.FailureMessageIdentifiesTask | velox/exec/tests/ExchangeClientTest.cpp:160-168 | two failure messages for the same error are equal exactly when the displayed parts of their task ids are, so the message identifies the task up to its first 128 characters |
| ExchangeClient.AddRemoteTaskIdIdempotent | velox/exec/tests/ExchangeClientTest.cpp:150-168 | registering a task id that was just registered returns the same client again, whatever the source factory would do |
| ExchangeClient.NoMoreRemoteTasks | velox/exec/tests/ExchangeClientTest.cpp:350-353 | declares the task set complete and keeps the pages, task ids, source count, end-marker count, closed flag and statistics; the stream is over exactly when every source has ended, and then every waiting consumer is resumed; otherwise nobody is resumed and the waiting consumers keep waiting |
| ExchangeClient.NoMoreRemoteTasksIdempotent | velox/exec/tests/ExchangeClientTest.cpp:350-353 | declaring the task set complete a second time changes nothing and resumes nobody |
| ExchangeClient.Next | velox/exec/tests/ExchangeClientTest.cpp:287-337 | on an open client the pull takes an `IsBatch` prefix and leaves the rest, is at end exactly when every source has ended and nothing is left, and suspends exactly when it returns nothing before the end, with a token not already waiting; a pull that does not suspend keeps the waiting consumers; on a closed client it returns nothing, at end, without continuation, and changes nothing; source bookkeeping and statistics are unchanged |
| ExchangeClient.Close | velox/exec/tests/ExchangeClientTest.cpp:451-462 | closing empties and closes the queue and resumes exactly the consumers that were waiting |
| ExchangeClient.Stats | velox/exec/tests/ExchangeClientTest.cpp:201-207 | the statistics map has exactly the keys "peakBytes", "numReceivedPages" and "averageReceivedPageBytes", with the queue's values: the peak is at most the bytes received, the page count is the pages received, and the average is 0 before any page and otherwise the received bytes over the page count, rounded down |
| ExchangeClient.CloseIdempotent | velox/exec/tests/ExchangeClientTest.cpp:452-462 | closing a closed client changes nothing and resumes nobody |
| ExchangeClient.NothingAfterClose | velox/exec/tests/ExchangeClientTest.cpp:451-460 | pages still queued at close are never handed out afterwards |
| OutputBuffer.Initialize | velox/exec/tests/ExchangeClientTest.cpp:466-479 | a new buffer has the given ceiling and number of destinations, each empty from sequence number 0, nothing buffered, nobody blocked |
| OutputBuffer.Enqueue | velox/exec/tests/ExchangeClientTest.cpp:496-537 | a page is appended to its destination only; the producer is blocked exactly when the buffer then holds at least its ceiling; unknown destinations and pages after the end are refused |
| OutputBuffer.Fetch | velox/exec/tests/ExchangeClientTest.cpp:504-520 | a read from a sequence number returns an `IsBatch` prefix of the pages held from there without removing them, reports the end exactly when the producer has finished and nothing is held from there, and refuses already acknowledged sequence numbers |
| OutputBuffer.AcknowledgedCount | velox/exec/tests/ExchangeClientTest.cpp:538-549 | an acknowledgement covers a run of held pages from the front: the last page it covers is numbered below the acknowledged sequence number, and the first page it leaves is not |
| OutputBuffer.AcknowledgedCountCovers | velox/exec/tests/ExchangeClientTest.cpp:538-549 | a held page is covered by an acknowledgement exactly when its sequence number is below the acknowledged one |
| OutputBuffer.Acknowledge | velox/exec/tests/ExchangeClientTest.cpp:538-549 | acknowledged pages are dropped from their destination only and their bytes freed; once the buffer is below its ceiling every blocked producer is released |
| OutputBuffer.EnqueuedPageIsRead | velox/exec/tests/ExchangeClientTest.cpp:496-520 | a page enqueued for a destination is exactly what a read at its sequence number returns, whatever the byte limit, without the end |
| OutputBuffer.AcknowledgeUndoesEnqueue | velox/exec/tests/ExchangeClientTest.cpp:538-549 | acknowledging a page right after enqueueing it for an empty destination restores the buffered bytes and leaves the destination empty one sequence number further |
| OutputBuffer.AcknowledgeOnlyPage | velox/exec/tests/ExchangeClientTest.cpp:538-549 | acknowledging the only page a destination holds empties it, moves it one sequence number on and frees exactly that page's bytes |
| OutputBuffer.NoMoreData | velox/exec/tests/ExchangeClientTest.cpp:587 | marks the producer finished without touching the held pages |
| OutputBuffer.RemoveTask | velox/exec/tests/ExchangeClientTest.cpp:472-476 | removing the task drops every page and releases every blocked producer |
| OutputBuffer.Utilization | velox/exec/tests/ExchangeClientTest.cpp:557-558 | utilization is the bytes of all held pages over the ceiling |
| OutputBuffer.UtilizationZeroWhenDrained | velox/exec/tests/ExchangeClientTest.cpp:562-575 | a buffer holding no pages has utilization 0 |
| OutputBuffer.AcknowledgeAllReleases | velox/exec/tests/ExchangeClientTest.cpp:562-575 | acknowledging everything held frees every byte and releases every blocked producer |
| LocalSource.Push | velox/exec/tests/ExchangeClientTest.cpp:504-520 | what a read returned is appended to the queue in order, followed by the end marker exactly when the read reported the end; no waiter is lost |
| LocalSource.AcknowledgeRead | velox/exec/tests/ExchangeClientTest.cpp:538-549 | acknowledging a read frees exactly its bytes, moves the destination past it, leaves other destinations alone, and releases blocked producers below the ceiling |
| LocalSource.Complete | velox/exec/tests/ExchangeClientTest.cpp:538-549 | a round once its read is answered satisfies `RoundFrom`: both sides valid, the pages read appended to the open queue in order, the end marker counted exactly when reported, the source moved past the read, exactly the bytes and pages read dropped from the destination in step, other destinations untouched, producers released below the ceiling, no waiter lost |
| LocalSource.Transfer | velox/exec/tests/ExchangeClientTest.cpp:504-549 | a finished source does nothing; a round fails exactly when the read is refused; otherwise it satisfies `RoundFrom` for the pages read |
| ExchangeClientScenarios.OversizedPageAlone | velox/exec/tests/ExchangeClientTest.cpp:276-281 | a front page larger than the limit is returned alone and whole |
| ExchangeClientScenarios.PullFromRun | velox/exec/tests/ExchangeClientTest.cpp:315-326 | from pages sized a, a+1, ..., a pull takes exactly the first k when they fit the limit and one more would not |
| ExchangeClientScenarios.PullFirstPage | velox/exec/tests/ExchangeClientTest.cpp:307-313 | a pull of one byte from the ten test pages returns the first page alone, not at end, without continuation, leaving the other nine |
| ExchangeClientScenarios.PullRun | velox/exec/tests/ExchangeClientTest.cpp:315-326 | a pull from pages sized a, a+1, ... returns exactly the first k, not at end, without continuation, and leaves the rest |
| ExchangeClientScenarios.PullTenPagesSteps | velox/exec/tests/ExchangeClientTest.cpp:307-326 | pulls of 1, 5000 and 10000 bytes from pages of 1000..1009 bytes return 1, 4 and 5 pages, none at end, none with a continuation, and empty the queue |
| ExchangeClientScenarios.PushPages | velox/exec/tests/ExchangeClientTest.cpp:303-305 | pages pushed into an empty queue are held in order, with the source bookkeeping unchanged |
| ExchangeClientScenarios.PushEndMarkers | velox/exec/tests/ExchangeClientTest.cpp:408-411 | n end markers count n finished sources and queue no page |
| ExchangeClientScenarios.AddSources | velox/exec/tests/ExchangeClientTest.cpp:113-121 | registering n sources and declaring the set complete raises the source count by n |
| ExchangeClientScenarios.PullOnNewClient | velox/exec/tests/ExchangeClientTest.cpp:291-297 | a pull on a new client, before any source exists, returns nothing, not at end, and waits |
| ExchangeClientScenarios.AddThreeRemoteTasks | velox/exec/tests/ExchangeClientTest.cpp:350-353 | registering the three local task ids and declaring the set complete adds three sources and queues no page |
| ExchangeClientScenarios.PullWhileEmpty | velox/exec/tests/ExchangeClientTest.cpp:355-357 | a pull on an empty queue whose sources have not all ended returns nothing, not at end, and waits, keeping the sources |
| ExchangeClientScenarios.PullAfterEnd | velox/exec/tests/ExchangeClientTest.cpp:331-334 | a pull once every source has ended and nothing is queued returns nothing, at end, without continuation |
| ExchangeClientScenarios.PullAfterClose | velox/exec/tests/ExchangeClientTest.cpp:453-460 | a pull on a closed client returns nothing, at end, without continuation, and the client stays closed |
| ExchangeClientScenarios.MultiPageFetch | velox/exec/tests/ExchangeClientTest.cpp:287-337 | the multiPageFetch test's observations: wait, then 1, 4 and 5 pages, then empty at end without continuation |
| ExchangeClientScenarios.SourceTimeout | velox/exec/tests/ExchangeClientTest.cpp:339-417 | with three sources nothing is at end until all three end markers arrive, then the pull is empty and at end |
| ExchangeClientScenarios.CallNextAfterClose | velox/exec/tests/ExchangeClientTest.cpp:419-463 | 4 pages before close; after close a pull is empty, at end, without continuation, though pages were queued; closing again resumes nobody |
| ExchangeClientScenarios.LargeSinglePage | velox/exec/tests/ExchangeClientTest.cpp:262-285 | with a page over 1000 bytes ahead of one under 1000, pulls of one byte return the large page and then the small one, each whole |
| ExchangeClientScenarios.StatsScenario | velox/exec/tests/ExchangeClientTest.cpp:173-213 | for pages of any sizes: peak at most their total, three pages received, average their total divided by three |
| ExchangeClientScenarios.CreateSourceFailure | velox/exec/tests/ExchangeClientTest.cpp:150-162 | a throwing source factory makes registering "task.1.2.3" fail with exactly the test's message |
| ExchangeClientScenarios.ShortIdMessage | velox/exec/tests/ExchangeClientTest.cpp:160-162 | the failure message for "task.1.2.3" is exactly the test's literal |
| ExchangeClientScenarios.CreateSourceFailureLongId | velox/exec/tests/ExchangeClientTest.cpp:164-168 | for a 1024-character id the message shows its first 128 characters |
| AcknowledgeScenario.OnePagePerRead | velox/exec/tests/ExchangeClientTest.cpp:466-468 | with a limit of one page, a read of full-sized pages takes exactly one |
| AcknowledgeScenario.ReadOnePage | velox/exec/tests/ExchangeClientTest.cpp:504-520 | a read of one page's worth returns the first held page and not the end |
| AcknowledgeScenario.EnqueueTwoPages | velox/exec/tests/ExchangeClientTest.cpp:496-509 | the first page goes on at once, the second reaches the 2048-byte ceiling and blocks |
| AcknowledgeScenario.EnqueueThirdPage | velox/exec/tests/ExchangeClientTest.cpp:526-537 | a third page on a buffer holding one blocks again |
| AcknowledgeScenario.StartClient | velox/exec/tests/ExchangeClientTest.cpp:511-512 | one source registered and the set declared complete |
| AcknowledgeScenario.OnePageFreed | velox/exec/tests/ExchangeClientTest.cpp:538-549 | any round that read the first of one or two full pages leaves one page fewer, frees its 1024 bytes and releases every blocked producer |
| AcknowledgeScenario.RoundFreesOnePage | velox/exec/tests/ExchangeClientTest.cpp:538-549 | a round reading one page frees its 1024 bytes and releases every blocked producer |
| AcknowledgeScenario.RoundQueuesOnePage | velox/exec/tests/ExchangeClientTest.cpp:538-549 | the same round appends that page to the client's queue |
| AcknowledgeScenario.RoundOfOnePage | velox/exec/tests/ExchangeClientTest.cpp:538-549 | both sides of such a round together |
| AcknowledgeScenario.PullOnePage | velox/exec/tests/ExchangeClientTest.cpp:541-546 | a pull of one byte from one queued page returns it, not at end, without continuation |
| AcknowledgeScenario.PullBeforeEnd | velox/exec/tests/ExchangeClientTest.cpp:589-592 | a pull before the end has arrived waits, and its token is recorded |
| AcknowledgeScenario.EndRound | velox/exec/tests/ExchangeClientTest.cpp:587-597 | the round after the producer finished delivers the end, ends the stream and resumes every waiting consumer |
| AcknowledgeScenario.Acknowledge | velox/exec/tests/ExchangeClientTest.cpp:465-601 | the acknowledge test's observations: enqueues not blocked, blocked, blocked; each blocked producer released by the next round; utilization 1/2 then 0; three single pages; a wait resumed by the end; then at end |

## Left out

- Threads, executors, futures and mutexes are not modelled. A continuation
  is a token, and resuming it means returning it in the `resumed` list of a
  transition.
- Source timeouts, retries and the `TestValue` hooks are left out
  (`ExchangeClientTest.cpp:359-385`, `:489-494`). They are timing-dependent
  liveness behaviour. The acknowledge test's count of explicit
  acknowledge requests is left out for the same reason.
- The flow-control policy that decides how many sources fetch at once under
  the client's byte budget is left out (`ExchangeClientTest.cpp:218-260`).
  Its admission code is not part of this model, and the test's bound
  depends on fetch timing. The client's queued-bytes budget is therefore
  not a parameter of the model.
- Page serialization, tasks, query contexts and memory pools are left out
  (`ExchangeClientTest.cpp:60-92`). A page is only its size.
- Error propagation into the queue (a source failing after creation) is
  left out. No shown code exercises it.
- Floating-point utilization is not modelled. Utilization is an exact
  fraction, and `RatioIs` compares it by cross-multiplication.
- The other files of the repository are not part of this model. They cover
  command-line expression running, function registration, trace-file
  reading and a connector configuration.
- OutputBuffer.Enqueue: the real buffer manager's choice of when to block a
  producer is not shown. The model blocks exactly when the buffer reaches
  its ceiling, the rule the acknowledge test's three enqueues agree with.
  The ceiling is compared with the bytes held over all destinations of the
  task, not with the bytes of the destination the page went to. The
  utilization the test reads is per task (`ExchangeClientTest.cpp:558`),
  and the test uses a single destination, where the two rules agree.
- LocalSource.Transfer: the in-process source of the tests is not shown.
  The model reads, pushes and acknowledges in one round. The real source
  may acknowledge in a later request.
- ExchangeQueue.Enqueue: which waiting consumers a data page resumes is
  decided by the queue's own enqueue code, which is not part of this model.
  The test's helper only fulfils the promises that code hands back
  (`ExchangeClientTest.cpp:123-134`). The model resumes every waiting
  consumer on a data page. A rule that resumes only the oldest is not
  modelled. An end marker resumes the waiting consumers only when it ends
  the stream. An end marker from one of several sources resumes nobody,
  since a resumed consumer would find nothing new to pull. No test observes
  which of several waiting consumers a page resumes, or whether an end
  marker that does not end the stream wakes anyone.
- ExchangeQueue.Enqueue: an end marker arriving after the queue holds more
  end markers than registered sources is counted like any other. The model
  does not detect a source ending twice.
- ExchangeClient.AddRemoteTaskId: a task id is recorded only once its source
  has been created, so an id whose creation failed can be registered again
  later. The test never registers a failed id a second time
  (`ExchangeClientTest.cpp:160-168`), and the client's own code is not part
  of this model.
- OutputBuffer.Fetch: the byte limit of a read is applied with the queue's
  rule: the first page is always returned whole, and the read stops before
  the page that would cross the limit. The buffer manager's own code is not
  part of this model. The test only reads 1024-byte pages under a 1024-byte
  limit, where every such rule returns one page.
- OutputBuffer.Acknowledge: suspended producers are released exactly when
  the buffer is strictly below its ceiling after the acknowledgement. This
  mirrors the blocking rule of `OutputBuffer.Enqueue`, which blocks once the
  ceiling is reached. The test only checks that one freed page of two
  releases the producer (`ExchangeClientTest.cpp:538-549`). An
  acknowledgement past the last page produced is not an error: it frees
  every held page of the destination, as `AcknowledgedCount` clamps it. The
  test never acknowledges beyond what it read.
- ExchangeClient.DisplayedTaskId: the display limit counts the characters of
  the id, where the program cuts its byte string at 128 bytes. The two agree
  on ASCII ids, which every id in the tests is
  (`ExchangeClientTest.cpp:160-168`). A non-ASCII id may be shown longer in
  bytes than the program would show it.

=== FILE: acknowledge_scenario.dfy ===
/**
 The acknowledge test restated over the model: a producer whose output
 buffer has a ceiling of two 1024-byte pages, and a client with one
 in-process source reading one page per round. Each round frees the bytes it
 read, which is what lets a suspended producer go on.
 */
module AcknowledgeScenario {
  import opened Wrappers
  import opened Pages
  import opened Continuations
  import EQ = ExchangeQueue
  import opened ExchangeClient
  import OB = OutputBuffer
  import LS = LocalSource
  import opened ExchangeClientScenarios

  const PageSize: nat := 1024
  const ServerBufferSize: nat := 2 * PageSize
  const SourceTaskId: string := "local://test-acknowledge-source-task"

  /** `n` pages of `PageSize` bytes. */
  function Full(n: nat): seq<Page>
  {
    seq(n, _ => MakePage(PageSize))
  }

  /** The producer's buffer with destination 1 holding `held` from sequence
      number `first` on, and nothing held for destination 0. */
  predicate Holding(b: OB.Buffer, first: nat, held: seq<Page>)
  {
    && OB.Valid(b) && b.ceiling == ServerBufferSize && !b.noMoreData
    && |b.destinations| == 2
    && b.destinations[0].pages == []
    && b.destinations[1] == OB.Destination(first, held)
    && b.bufferedBytes == Bytes(held)
  }

  /** With a byte limit of one page, a read of full-sized pages takes
      exactly one. */
  lemma OnePagePerRead(held: seq<Page>, k: nat)
    requires held != [] && forall i :: 0 <= i < |held| ==> held[i] == MakePage(PageSize)
    requires IsBatch(held, PageSize, k)
    ensures k == 1
  {
    if 1 < |held| {
      RunBytesPair(held);
    }
    assert IsBatch(held, PageSize, 1);
    BatchUnique(held, PageSize, k, 1);
  }

  /** Bytes of one and two full pages. */
  lemma FullBytes()
    ensures Bytes(Full(0)) == 0 && Bytes(Full(1)) == PageSize && Bytes(Full(2)) == 2 * PageSize
  {
    assert Full(2)[..1] == Full(1);
    assert Full(1)[..0] == Full(0);
  }

  /** A read of one page's worth from a destination holding `n` full pages
      returns the first of them, and not the end. */
  lemma ReadOnePage(b: OB.Buffer, sequence: nat, n: nat)
    requires 1 <= n && Holding(b, sequence, Full(n))
    ensures OB.Fetch(b, 1, sequence, PageSize) == Success(OB.Fetched([MakePage(PageSize)], false))
  {
    var f := OB.Fetch(b, 1, sequence, PageSize).value;
    assert b.destinations[1].pages[0..] == Full(n);
    OnePagePerRead(Full(n), |f.pages|);
    assert f.pages == Full(n)[..1] == [MakePage(PageSize)];
    assert !f.atEnd;
  }

  /** The first two pages: the first fits under the ceiling, the second
      reaches it and suspends the producer. */
  method EnqueueTwoPages() returns (blocked: seq<bool>, waiter: nat, b: OB.Buffer)
    ensures blocked == [false, true]
    ensures Holding(b, 0, Full(2)) && b.blocked == [waiter]
  {
    var b0 := OB.Initialize(ServerBufferSize, 2);
    var e1 := OB.Enqueue(b0, 1, MakePage(PageSize)).value;
    var e2 := OB.Enqueue(e1.buffer, 1, MakePage(PageSize)).value;
    assert Full(2) == [MakePage(PageSize), MakePage(PageSize)];
    blocked, waiter, b := [e1.continuation.Pending?, e2.continuation.Pending?], e2.continuation.token, e2.buffer;
  }

  /** A third page on a buffer holding one reaches the ceiling again. */
  method EnqueueThirdPage(b: OB.Buffer, first: nat) returns (blocked: bool, waiter: nat, b': OB.Buffer)
    requires Holding(b, first, Full(1)) && b.blocked == []
    ensures blocked
    ensures Holding(b', first, Full(2)) && b'.blocked == [waiter]
  {
    var e := OB.Enqueue(b, 1, MakePage(PageSize)).value;
    assert Full(1) + [MakePage(PageSize)] == Full(2);
    BytesConcat(Full(1), [MakePage(PageSize)]);
    blocked, waiter, b' := e.continuation.Pending?, e.continuation.token, e.buffer;
  }

  /** The client of the test: one source, registered and declared complete. */
  method StartClient() returns (c: Client)
    ensures Holds(c, []) && c.queue.waiting == []
    ensures c.queue.numSources == 1 && c.queue.numCompleted == 0 && c.queue.noMoreSources
  {
    var c0 := Create();
    var c1 := AddRemoteTaskId(c0, SourceTaskId, Created).value;
    c := NoMoreRemoteTasks(c1).client;
  }

  /** What any round that read the first of `n` full pages leaves in the
      buffer: one page fewer, its bytes freed, every producer released. */
  lemma OnePageFreed(b: OB.Buffer, s: LS.Source, q: EQ.Queue, n: nat, r: LS.Round)
    requires 1 <= n <= 2 && Holding(b, s.sequence, Full(n)) && s.destination == 1
    requires LS.RoundFrom(b, s, q, OB.Fetched([MakePage(PageSize)], false), r)
    ensures Holding(r.buffer, s.sequence + 1, Full(n - 1))
    ensures r.source == LS.Source(1, s.sequence + 1, false)
    ensures r.producersReleased == b.blocked && r.buffer.blocked == []
  {
    FullBytes();
    assert Full(n)[1..] == Full(n - 1);
    assert r.buffer.destinations[0] == b.destinations[0];
  }

  /** The producer's side of one round while destination 1 holds `n` full
      pages: the first of them is acknowledged and its bytes freed, which
      brings the buffer below the ceiling and releases every suspended
      producer. */
  lemma RoundFreesOnePage(b: OB.Buffer, s: LS.Source, q: EQ.Queue, n: nat)
    requires 1 <= n <= 2 && Holding(b, s.sequence, Full(n)) && s.destination == 1 && !s.atEnd
    requires EQ.Valid(q)
    ensures LS.Transfer(b, s, q, PageSize).Success?
    ensures var r := LS.Transfer(b, s, q, PageSize).value;
      && Holding(r.buffer, s.sequence + 1, Full(n - 1))
      && r.source == LS.Source(1, s.sequence + 1, false)
      && r.producersReleased == b.blocked && r.buffer.blocked == []
  {
    ReadOnePage(b, s.sequence, n);
    OnePageFreed(b, s, q, n, LS.Transfer(b, s, q, PageSize).value);
  }

  /** The consumer's side of the same round: the page read is queued. */
  lemma RoundQueuesOnePage(b: OB.Buffer, s: LS.Source, q: EQ.Queue, n: nat)
    requires 1 <= n <= 2 && Holding(b, s.sequence, Full(n)) && s.destination == 1 && !s.atEnd
    requires EQ.Valid(q) && !q.closed
    ensures LS.Transfer(b, s, q, PageSize).Success?
    ensures var r := LS.Transfer(b, s, q, PageSize).value;
      && EQ.Valid(r.queue) && !r.queue.closed
      && r.queue.pages == q.pages + [MakePage(PageSize)]
      && r.queue.numSources == q.numSources && r.queue.numCompleted == q.numCompleted
      && r.queue.noMoreSources == q.noMoreSources
  {
    ReadOnePage(b, s.sequence, n);
  }

  /**
   One round of the source while destination 1 holds `n` full pages: the
   first of them moves to the client's queue and its bytes are freed, and
   the producers suspended on the buffer are released once it is below the
   ceiling again.
   */
  method RoundOfOnePage(b: OB.Buffer, s: LS.Source, c: Client, n: nat)
      returns (released: seq<nat>, b': OB.Buffer, s': LS.Source, c': Client)
    requires 1 <= n <= 2 && Holding(b, s.sequence, Full(n)) && s.destination == 1 && !s.atEnd
    requires Holds(c, [])
    ensures Holding(b', s.sequence + 1, Full(n - 1)) && s' == LS.Source(1, s.sequence + 1, false)
    ensures released == b.blocked && b'.blocked == []
    ensures Holds(c', [MakePage(PageSize)]) && SameSources(c, c')
  {
    RoundFreesOnePage(b, s, c.queue, n);
    RoundQueuesOnePage(b, s, c.queue, n);
    var r := LS.Transfer(b, s, c.queue, PageSize).value;
    released, b', s', c' := r.producersReleased, r.buffer, r.source, c.(queue := r.queue);
  }

  /** Pulling one byte from a queue holding one page of an unfinished
      stream returns that page at once. */
  method PullOnePage(c: Client, p: Page) returns (seen: Seen, c': Client)
    requires Holds(c, [p]) && !EQ.AllSourcesDone(c.queue)
    ensures seen == Seen(1, false, false)
    ensures Holds(c', []) && SameSources(c, c') && c'.queue.waiting == c.queue.waiting
  {
    var r := Next(c, 1);
    assert IsBatch([p], 1, 1);
    BatchUnique([p], 1, |r.pages|, 1);
    seen, c' := See(r), r.client;
  }

  /** A pull before the producer's end has reached the queue waits, and the
      consumer's token is recorded. */
  method PullBeforeEnd(c: Client) returns (seen: Seen, token: nat, c': Client)
    requires Holds(c, []) && !EQ.AllSourcesDone(c.queue)
    ensures seen == Seen(0, false, true)
    ensures Holds(c', []) && SameSources(c, c') && token in c'.queue.waiting
  {
    var r := Next(c, 1);
    seen, token, c' := See(r), r.continuation.token, r.client;
  }

  /** Once the producer has finished and everything is acknowledged, a round
      delivers the end marker, which ends the stream and resumes every
      waiting consumer. */
  method EndRound(b: OB.Buffer, s: LS.Source, c: Client) returns (resumed: seq<nat>, c': Client)
    requires OB.Valid(b) && b.noMoreData && LS.InStep(b, s) && b.destinations[s.destination].pages == []
    requires !s.atEnd && Holds(c, []) && c.queue.noMoreSources
    requires c.queue.numCompleted + 1 == c.queue.numSources
    ensures Holds(c', []) && EQ.AllSourcesDone(c'.queue)
    ensures forall t :: t in c.queue.waiting ==> t in resumed
  {
    var r := LS.Transfer(b, s, c.queue, PageSize).value;
    resumed, c' := r.consumersResumed, c.(queue := r.queue);
  }

  /**
   acknowledge: the first enqueue goes on and the second is suspended; the
   first round of the source releases it. A third enqueue is suspended
   again, and the round after the next pull releases it, leaving the buffer
   half full. Each pull of one byte returns one page; after one more round
   the buffer is empty. Once the producer has finished, a pull waits and is
   resumed by the round that delivers the end, and the next pull reports the
   end.
   */
  method Acknowledge()
      returns (enqueueBlocked: seq<bool>, releasedInTurn: seq<bool>, utilization: seq<OB.Ratio>,
               seen: seq<Seen>, endWaiterResumed: bool)
    ensures enqueueBlocked == [false, true, true]
    ensures releasedInTurn == [true, true]
    ensures |utilization| == 2 && OB.RatioIs(utilization[0], 1, 2) && OB.RatioIs(utilization[1], 0, 1)
    ensures seen == [Seen(1, false, false), Seen(1, false, false), Seen(1, false, false),
                     Seen(0, false, true), Seen(0, true, false)]
    ensures endWaiterResumed
  {
    var blocked, second, b := EnqueueTwoPages();
    var c := StartClient();
    var s := LS.Source(1, 0, false);
    var released;
    released, b, s, c := RoundOfOnePage(b, s, c, 2);
    var secondReleased := second in released;
    var third, thirdWaiter;
    third, thirdWaiter, b := EnqueueThirdPage(b, s.sequence);
    var seen1;
    seen1, c := PullOnePage(c, MakePage(PageSize));
    released, b, s, c := RoundOfOnePage(b, s, c, 2);
    var thirdReleased := thirdWaiter in released;
    var halfFull := OB.Utilization(b);
    var seen2;
    seen2, c := PullOnePage(c, MakePage(PageSize));
    released, b, s, c := RoundOfOnePage(b, s, c, 1);
    var drained := OB.Utilization(b);
    var seen3;
    seen3, c := PullOnePage(c, MakePage(PageSize));
    b := OB.NoMoreData(b);
    var seen4, token;
    seen4, token, c := PullBeforeEnd(c);
    var resumed;
    resumed, c := EndRound(b, s, c);
    var seen5 := See(Next(c, 1));
    enqueueBlocked := blocked + [third];
    releasedInTurn := [secondReleased, thirdReleased];
    utilization := [halfFull, drained];
    seen := [seen1, seen2, seen3, seen4, seen5];
    endWaiterResumed := token in resumed;
  }
}

=== FILE: continuations.dfy ===
/**
 Suspend/resume handles. The engine hands out one-shot futures; here a future
 is a token number, and "resolving" a future means reporting its token in the
 list of tokens an operation released.
 */
module Continuations {

  /** What a caller may wait on after a call: nothing (an invalid or already
      satisfied future) or the token of a future still to be resolved. */
  datatype Continuation = NoContinuation | Pending(token: nat)

  /** The tokens still waiting, oldest first: strictly increasing and all
      issued before `next`, so no token is waiting twice. */
  predicate Outstanding(tokens: seq<nat>, next: nat)
  {
    && (forall i :: 0 <= i < |tokens| ==> tokens[i] < next)
    && (forall i, j :: 0 <= i < j < |tokens| ==> tokens[i] < tokens[j])
  }

  /** Handing out the next token keeps the waiting list well formed. */
  lemma OutstandingAppend(tokens: seq<nat>, next: nat)
    requires Outstanding(tokens, next)
    ensures Outstanding(tokens + [next], next + 1)
  {
  }
}

=== FILE: exchange_client.dfy ===
/**
 The exchange client's consumer-facing API on top of its exchange queue:
 registering remote producer tasks (one fetch source each), declaring the
 source set complete, pulling batches, closing, and reporting statistics.
 Fetching itself, and the flow control that decides which sources may fetch,
 are not part of this module.
 */
module ExchangeClient {
  import opened Wrappers
  import opened Pages
  import opened Continuations
  import EQ = ExchangeQueue

  datatype Client = Client(queue: EQ.Queue, remoteTaskIds: set<string>)

  /** Result of a pull: the client afterwards, the batch, whether the stream
      is over, and what the caller may wait on. */
  datatype Pulled = Pulled(client: Client, pages: seq<Page>, atEnd: bool, continuation: Continuation)

  /** Result of a call that may resume suspended consumers. */
  datatype Resumed = Resumed(client: Client, resumed: seq<nat>)

  predicate Valid(c: Client)
  {
    EQ.Valid(c.queue)
  }

  predicate Closed(c: Client)
  {
    c.queue.closed
  }

  /** A new client: no remote tasks, an empty open queue. */
  function Create(): (c: Client)
    ensures Valid(c) && !Closed(c)
    ensures c.remoteTaskIds == {} && c.queue.numSources == 0 && c.queue.pages == []
  {
    Client(EQ.Empty(), {})
  }

  /** What the fetch-source factory did for one remote task id: built a
      source, raised one of the engine's own errors, or raised some other
      exception (whose message is `what`). */
  datatype SourceCreation = Created | EngineError(message: string) | OtherError(what: string)

  /** Longest task id shown in a source-construction failure. */
  const MaxTaskIdDisplayLength: nat := 128

  const FailurePrefix: string := "Failed to create ExchangeSource: "
  const TaskIdLabel: string := ". Task ID: "

  /** The part of a task id an error message shows. */
  function DisplayedTaskId(taskId: string): (shown: string)
    ensures |shown| <= MaxTaskIdDisplayLength
    ensures shown <= taskId
    ensures |taskId| <= MaxTaskIdDisplayLength ==> shown == taskId
    ensures |taskId| > MaxTaskIdDisplayLength ==> |shown| == MaxTaskIdDisplayLength
  {
    if |taskId| <= MaxTaskIdDisplayLength then taskId else taskId[..MaxTaskIdDisplayLength]
  }

  /**
   The message of a source-construction failure caused by a non-engine
   exception: the fixed lead-in, the exception's message, the task id cut to
   its display length, and a closing full stop. The id can be read back from
   the message, and the message's length does not grow with the id beyond
   the display length.
   */
  function CreateFailureMessage(what: string, taskId: string): (msg: string)
    ensures FailurePrefix + what + TaskIdLabel <= msg
    ensures |msg| > 0 && msg[|msg| - 1] == '.'
    ensures msg[|FailurePrefix + what + TaskIdLabel|..|msg| - 1] == DisplayedTaskId(taskId)
    ensures |msg| <= |FailurePrefix| + |what| + |TaskIdLabel| + MaxTaskIdDisplayLength + 1
  {
    var lead := FailurePrefix + what + TaskIdLabel;
    var msg := lead + DisplayedTaskId(taskId) + ".";
    assert msg[..|lead|] == lead;
    assert msg[|lead|..|msg| - 1] == DisplayedTaskId(taskId);
    msg
  }

  /**
   Registers a remote producer task. A task id seen before is ignored. If the
   factory fails, the call fails: an engine error passes through unchanged,
   any other exception becomes `CreateFailureMessage`. Otherwise the id is
   recorded and, unless the client is closed (the new source is then closed
   at once), the queue gains a source; registering a source after the source
   set was declared complete is refused.
   */
  function AddRemoteTaskId(c: Client, taskId: string, creation: SourceCreation): (r: Result<Client, string>)
    requires Valid(c)
    ensures r.Success? ==> Valid(r.value)
    ensures taskId in c.remoteTaskIds ==> r == Success(c)
    ensures taskId !in c.remoteTaskIds && creation.EngineError? ==> r == Failure(creation.message)
    ensures taskId !in c.remoteTaskIds && creation.OtherError? ==>
      r == Failure(CreateFailureMessage(creation.what, taskId))
    ensures taskId !in c.remoteTaskIds && creation.Created? ==>
      (r.Failure? <==> !Closed(c) && c.queue.noMoreSources)
    ensures taskId !in c.remoteTaskIds && r.Success? ==>
      && r.value.remoteTaskIds == c.remoteTaskIds + {taskId}
      && r.value.queue == (if Closed(c) then c.queue else c.queue.(numSources := c.queue.numSources + 1))
  {
    if taskId in c.remoteTaskIds then Success(c)
    else
      match creation
      case EngineError(m) => Failure(m)
      case OtherError(w) => Failure(CreateFailureMessage(w, taskId))
      case Created =>
        if Closed(c) then Success(c.(remoteTaskIds := c.remoteTaskIds + {taskId}))
        else
          match EQ.AddSource(c.queue)
          case Failure(e) => Failure(e)
          case Success(q) => Success(Client(q, c.remoteTaskIds + {taskId}))
  }

  /** Declares that no further remote tasks will be added, which lets the
      queue detect the end of the stream. */
  function NoMoreRemoteTasks(c: Client): (r: Resumed)
    requires Valid(c)
    ensures Valid(r.client)
    ensures r.client.queue.noMoreSources && r.client.remoteTaskIds == c.remoteTaskIds
    ensures r.client.queue.pages == c.queue.pages
    ensures EQ.AllSourcesDone(r.client.queue) <==> c.queue.numCompleted >= c.queue.numSources
    ensures r.client.queue.numSources == c.queue.numSources
    ensures r.client.queue.numCompleted == c.queue.numCompleted
    ensures Closed(r.client) == Closed(c)
    ensures r.client.queue.peakBytes == c.queue.peakBytes
    ensures r.client.queue.receivedPages == c.queue.receivedPages
    ensures r.client.queue.receivedBytes == c.queue.receivedBytes
    ensures EQ.AllSourcesDone(r.client.queue) ==> r.resumed == c.queue.waiting && r.client.queue.waiting == []
    ensures !EQ.AllSourcesDone(r.client.queue) ==> r.resumed == [] && r.client.queue.waiting == c.queue.waiting
  {
    var t := EQ.NoMoreSources(c.queue);
    Resumed(c.(queue := t.queue), t.resumed)
  }

  /** Declaring the task set complete a second time changes nothing and
      resumes nobody. */
  lemma NoMoreRemoteTasksIdempotent(c: Client)
    requires Valid(c)
    ensures var r := NoMoreRemoteTasks(c);
      NoMoreRemoteTasks(r.client) == Resumed(r.client, [])
  {
    var r := NoMoreRemoteTasks(c);
    var r2 := NoMoreRemoteTasks(r.client);
    assert r2.client.queue == r.client.queue;
  }

  /**
   The consumer's pull. After close it returns nothing, at end, with no
   continuation. Before that it drains the longest batch `IsBatch` allows
   from the front of the queue, reports the end exactly when every source
   has ended and nothing is left, and hands back a pending continuation
   exactly when it returns nothing and the stream is not over.
   */
  function Next(c: Client, maxBytes: nat): (r: Pulled)
    requires Valid(c)
    ensures Valid(r.client)
    ensures Closed(c) ==> r.pages == [] && r.atEnd && r.continuation == NoContinuation
    ensures !Closed(c) ==> r.pages + r.client.queue.pages == c.queue.pages
    ensures !Closed(c) ==> IsBatch(c.queue.pages, maxBytes, |r.pages|)
    ensures r.atEnd <==> Closed(c) || (EQ.AllSourcesDone(c.queue) && r.client.queue.pages == [])
    ensures r.continuation.Pending? <==> r.pages == [] && !r.atEnd
    ensures Closed(c) ==> r.client == c
    ensures r.continuation.Pending? ==>
      r.continuation.token !in c.queue.waiting && r.client.queue.waiting == c.queue.waiting + [r.continuation.token]
    ensures r.continuation.NoContinuation? ==> r.client.queue.waiting == c.queue.waiting
    ensures Closed(r.client) == Closed(c) && r.client.remoteTaskIds == c.remoteTaskIds
    ensures r.client.queue.numSources == c.queue.numSources
    ensures r.client.queue.noMoreSources == c.queue.noMoreSources
    ensures r.client.queue.numCompleted == c.queue.numCompleted
    ensures r.client.queue.receivedPages == c.queue.receivedPages
    ensures r.client.queue.receivedBytes == c.queue.receivedBytes
    ensures r.client.queue.peakBytes == c.queue.peakBytes
  {
    if Closed(c) then Pulled(c, [], true, NoContinuation)
    else
      var d := EQ.Next(c.queue, maxBytes);
      Pulled(c.(queue := d.queue), d.pages, d.atEnd, d.continuation)
  }

  /** Closes the client and its queue; may be called again. Every consumer
      still waiting is resumed. */
  function Close(c: Client): (r: Resumed)
    requires Valid(c)
    ensures Valid(r.client) && Closed(r.client)
    ensures r.client.queue.pages == []
    ensures r.resumed == c.queue.waiting && r.client.queue.waiting == []
  {
    var t := EQ.Close(c.queue);
    Resumed(c.(queue := t.queue), t.resumed)
  }

  /** The metric names the client reports. */
  const PeakBytesKey: string := "peakBytes"
  const NumReceivedPagesKey: string := "numReceivedPages"
  const AverageReceivedPageBytesKey: string := "averageReceivedPageBytes"

  /** Runtime statistics by metric name. */
  function Stats(c: Client): (m: map<string, nat>)
    requires Valid(c)
    ensures m.Keys == {PeakBytesKey, NumReceivedPagesKey, AverageReceivedPageBytesKey}
    ensures m[PeakBytesKey] == c.queue.peakBytes <= c.queue.receivedBytes
    ensures m[NumReceivedPagesKey] == c.queue.receivedPages
    ensures c.queue.receivedPages == 0 ==> m[AverageReceivedPageBytesKey] == 0
    ensures c.queue.receivedPages > 0 ==>
      m[AverageReceivedPageBytesKey] * c.queue.receivedPages <= c.queue.receivedBytes
      < (m[AverageReceivedPageBytesKey] + 1) * c.queue.receivedPages
    ensures m[AverageReceivedPageBytesKey] == EQ.GetStats(c.queue).averageReceivedPageBytes
  {
    var s := EQ.GetStats(c.queue);
    map[PeakBytesKey := s.peakBytes,
        NumReceivedPagesKey := s.numReceivedPages,
        AverageReceivedPageBytesKey := s.averageReceivedPageBytes]
  }

  /** Two failure messages for the same error are equal exactly when the
      displayed parts of their task ids are. */
  lemma FailureMessageIdentifiesTask(what: string, a: string, b: string)
    ensures CreateFailureMessage(what, a) == CreateFailureMessage(what, b)
        <==> DisplayedTaskId(a) == DisplayedTaskId(b)
  {
    var ma := CreateFailureMessage(what, a);
    var mb := CreateFailureMessage(what, b);
    var n := |FailurePrefix + what + TaskIdLabel|;
    if ma == mb {
      assert ma[n..|ma| - 1] == mb[n..|mb| - 1];
    }
  }

  /** Registering a task id that was just registered changes nothing,
      whatever the factory would do the second time. */
  lemma AddRemoteTaskIdIdempotent(c: Client, taskId: string, first: SourceCreation, second: SourceCreation)
    requires Valid(c) && AddRemoteTaskId(c, taskId, first).Success?
    ensures AddRemoteTaskId(AddRemoteTaskId(c, taskId, first).value, taskId, second)
         == AddRemoteTaskId(c, taskId, first)
  {
  }

  /** Closing an already closed client changes nothing and resumes nobody. */
  lemma CloseIdempotent(c: Client)
    requires Valid(c)
    ensures Close(Close(c).client) == Resumed(Close(c).client, [])
  {
  }

  /** Pages still queued at close are never handed out afterwards. */
  lemma NothingAfterClose(c: Client, maxBytes: nat)
    requires Valid(c)
    ensures Next(Close(c).client, maxBytes) == Pulled(Close(c).client, [], true, NoContinuation)
  {
  }
}

=== FILE: exchange_queue.dfy ===
/**
 The consumer-side exchange queue: a FIFO of received pages fed by any number
 of fetch sources, with end-of-stream detection by counting end markers,
 one-shot continuations for consumers that found nothing to read, and the
 running statistics the exchange client reports.
 */
module ExchangeQueue {
  import opened Wrappers
  import opened Pages
  import opened Continuations

  /** What a fetch source pushes into the queue: a page, or the end marker
      (a null page in the engine) saying that source has no more data. */
  datatype Delivery = Data(page: Page) | EndOfData

  datatype Queue = Queue(
    pages: seq<Page>,        // received and not yet consumed, oldest first
    numSources: nat,         // sources registered so far
    noMoreSources: bool,     // no further source will be registered
    numCompleted: nat,       // end markers received
    closed: bool,
    waiting: seq<nat>,       // consumers suspended in next, oldest first
    nextToken: nat,          // token of the next continuation handed out
    totalBytes: nat,         // bytes currently queued
    peakBytes: nat,          // high-water mark of totalBytes
    receivedPages: nat,      // data pages ever received
    receivedBytes: nat)      // bytes of data pages ever received

  /** Result of a call that may resume suspended consumers. */
  datatype Transition = Transition(queue: Queue, resumed: seq<nat>)

  /** A consumer stops waiting only by being resumed: every token that was
      waiting before a transition and is not waiting after it was resumed by
      it. */
  predicate NoLostWakeup(q: Queue, r: Transition)
  {
    forall t :: t in q.waiting && t !in r.queue.waiting ==> t in r.resumed
  }

  /** Result of one drain: the pages taken, whether the stream is over, and
      what the caller may wait on. */
  datatype Dequeued = Dequeued(queue: Queue, pages: seq<Page>, atEnd: bool, continuation: Continuation)

  /** Every registered source has delivered its end marker, and no further
      source will be registered. */
  predicate AllSourcesDone(q: Queue)
  {
    q.noMoreSources && q.numCompleted >= q.numSources
  }

  /** The invariant every reachable queue keeps. */
  predicate Valid(q: Queue)
  {
    && q.totalBytes == Bytes(q.pages)
    && q.totalBytes <= q.peakBytes <= q.receivedBytes
    && |q.pages| <= q.receivedPages
    && (q.closed ==> q.pages == [] && q.waiting == [])
    && (q.waiting != [] ==> q.pages == [] && !AllSourcesDone(q))
    && Outstanding(q.waiting, q.nextToken)
  }

  /** A freshly created queue: no sources, no pages, nothing received. */
  function Empty(): (q: Queue)
    ensures Valid(q)
    ensures q.pages == [] && q.waiting == [] && !q.closed
    ensures !AllSourcesDone(q)
    ensures q.peakBytes == 0 && q.receivedPages == 0 && q.receivedBytes == 0
  {
    Queue([], 0, false, 0, false, [], 0, 0, 0, 0, 0)
  }

  /** Registers one more source; refused once no more sources were promised. */
  function AddSource(q: Queue): (r: Result<Queue, string>)
    requires Valid(q)
    ensures r.Failure? <==> q.noMoreSources
    ensures r.Success? ==> Valid(r.value)
    ensures r.Success? ==> r.value == q.(numSources := q.numSources + 1)
  {
    if q.noMoreSources then Failure("addSource called after noMoreSources")
    else Success(q.(numSources := q.numSources + 1))
  }

  /** Declares the source set complete; if every source already ended, the
      stream is over and every suspended consumer is resumed. */
  function NoMoreSources(q: Queue): (r: Transition)
    requires Valid(q)
    ensures Valid(r.queue)
    ensures r.queue.noMoreSources
    ensures r.queue.pages == q.pages && r.queue.numSources == q.numSources
    ensures r.queue.numCompleted == q.numCompleted
    ensures r.queue.closed == q.closed
    ensures r.queue.peakBytes == q.peakBytes
    ensures r.queue.receivedPages == q.receivedPages && r.queue.receivedBytes == q.receivedBytes
    ensures AllSourcesDone(r.queue) <==> q.numCompleted >= q.numSources
    ensures AllSourcesDone(r.queue) ==> r.resumed == q.waiting && r.queue.waiting == []
    ensures !AllSourcesDone(r.queue) ==> r.resumed == [] && r.queue.waiting == q.waiting
  {
    var q' := q.(noMoreSources := true);
    if AllSourcesDone(q') then Transition(q'.(waiting := []), q.waiting)
    else Transition(q', [])
  }

  /**
   Accepts one delivery from a source. A data page goes to the back of the
   queue, is counted in the statistics and resumes every suspended consumer;
   an end marker counts one finished source and resumes the consumers only
   when it ends the stream. A closed queue drops whatever arrives.
   */
  function Enqueue(q: Queue, d: Delivery): (r: Transition)
    requires Valid(q)
    ensures Valid(r.queue)
    ensures q.closed ==> r == Transition(q, [])
    ensures !q.closed && d.Data? ==>
      && r.queue.pages == q.pages + [d.page]
      && r.queue.receivedPages == q.receivedPages + 1
      && r.queue.receivedBytes == q.receivedBytes + d.page.bytes
      && r.queue.peakBytes == (if q.peakBytes < r.queue.totalBytes then r.queue.totalBytes else q.peakBytes)
      && r.queue.numCompleted == q.numCompleted
      && r.resumed == q.waiting && r.queue.waiting == []
    ensures !q.closed && d.EndOfData? ==>
      && r.queue.pages == q.pages
      && r.queue.receivedPages == q.receivedPages
      && r.queue.receivedBytes == q.receivedBytes
      && r.queue.peakBytes == q.peakBytes
      && r.queue.numCompleted == q.numCompleted + 1
      && (AllSourcesDone(r.queue) ==> r.resumed == q.waiting && r.queue.waiting == [])
      && (!AllSourcesDone(r.queue) ==> r.resumed == [] && r.queue.waiting == q.waiting)
    ensures r.queue.closed == q.closed && r.queue.numSources == q.numSources
    ensures r.queue.noMoreSources == q.noMoreSources
    ensures r.queue.peakBytes >= q.peakBytes
    ensures NoLostWakeup(q, r)
  {
    if q.closed then Transition(q, [])
    else
      match d
      case Data(p) =>
        BytesConcat(q.pages, [p]);
        var total := q.totalBytes + p.bytes;
        var q' := q.(
          pages := q.pages + [p],
          totalBytes := total,
          peakBytes := if q.peakBytes < total then total else q.peakBytes,
          receivedPages := q.receivedPages + 1,
          receivedBytes := q.receivedBytes + p.bytes,
          waiting := []);
        Transition(q', q.waiting)
      case EndOfData =>
        var q' := q.(numCompleted := q.numCompleted + 1);
        if AllSourcesDone(q') then Transition(q'.(waiting := []), q.waiting)
        else Transition(q', [])
  }

  /**
   The consumer's pull. A closed queue returns nothing, reports the end and
   hands back no continuation. Otherwise the longest batch `IsBatch` allows
   is removed from the front; the stream is reported over exactly when every
   source has ended and nothing is left; and an empty batch that is not the
   end comes with a fresh pending continuation, resumed by the next page, the
   end of the stream, or close.
   */
  function Next(q: Queue, maxBytes: nat): (r: Dequeued)
    requires Valid(q)
    ensures Valid(r.queue)
    ensures q.closed ==> r == Dequeued(q, [], true, NoContinuation)
    ensures !q.closed ==> r.pages + r.queue.pages == q.pages
    ensures !q.closed ==> IsBatch(q.pages, maxBytes, |r.pages|)
    ensures r.atEnd <==> q.closed || (AllSourcesDone(q) && r.queue.pages == [])
    ensures r.continuation.Pending? <==> r.pages == [] && !r.atEnd
    ensures r.continuation.Pending? ==>
      r.continuation.token !in q.waiting && r.queue.waiting == q.waiting + [r.continuation.token]
    ensures r.continuation.NoContinuation? ==> r.queue.waiting == q.waiting
    ensures r.queue.totalBytes + Bytes(r.pages) == q.totalBytes
    ensures r.queue.closed == q.closed && r.queue.numSources == q.numSources
    ensures r.queue.noMoreSources == q.noMoreSources && r.queue.numCompleted == q.numCompleted
    ensures r.queue.peakBytes == q.peakBytes
    ensures r.queue.receivedPages == q.receivedPages && r.queue.receivedBytes == q.receivedBytes
  {
    if q.closed then Dequeued(q, [], true, NoContinuation)
    else
      var k := BatchLength(q.pages, maxBytes);
      var taken := q.pages[..k];
      var rest := q.pages[k..];
      assert taken + rest == q.pages;
      BytesConcat(taken, rest);
      var atEnd := AllSourcesDone(q) && rest == [];
      var q' := q.(pages := rest, totalBytes := Bytes(rest));
      if k == 0 && !atEnd then
        var t := q.nextToken;
        OutstandingAppend(q.waiting, t);
        Dequeued(q'.(waiting := q.waiting + [t], nextToken := t + 1), [], false, Pending(t))
      else
        Dequeued(q', taken, atEnd, NoContinuation)
  }

  /** Closes the queue: queued pages are dropped, the queue stays at end for
      good, and every suspended consumer is resumed. */
  function Close(q: Queue): (r: Transition)
    requires Valid(q)
    ensures Valid(r.queue)
    ensures r.queue.closed && r.queue.pages == [] && r.queue.waiting == []
    ensures r.resumed == q.waiting
    ensures r.queue.peakBytes == q.peakBytes
    ensures r.queue.receivedPages == q.receivedPages && r.queue.receivedBytes == q.receivedBytes
  {
    Transition(q.(closed := true, pages := [], totalBytes := 0, waiting := []), q.waiting)
  }

  /** The statistics the client reports. */
  datatype Stats = Stats(peakBytes: nat, numReceivedPages: nat, averageReceivedPageBytes: nat)

  /** Peak bytes, the number of data pages received and their average size,
      rounded down (zero before any page arrives). */
  function GetStats(q: Queue): (s: Stats)
    requires Valid(q)
    ensures s.peakBytes == q.peakBytes <= q.receivedBytes
    ensures s.numReceivedPages == q.receivedPages
    ensures q.receivedPages == 0 ==> s.averageReceivedPageBytes == 0
    ensures q.receivedPages > 0 ==>
      s.averageReceivedPageBytes * q.receivedPages <= q.receivedBytes
      < (s.averageReceivedPageBytes + 1) * q.receivedPages
  {
    Stats(q.peakBytes, q.receivedPages,
          if q.receivedPages == 0 then 0 else q.receivedBytes / q.receivedPages)
  }

  // ---------------------------------------------------------------------
  // Runs of operations

  /** The data pages among a run of deliveries, in order. */
  function DataPages(ds: seq<Delivery>): seq<Page>
  {
    if ds == [] then []
    else (if ds[0].Data? then [ds[0].page] else []) + DataPages(ds[1..])
  }

  /** The number of end markers among a run of deliveries. */
  function EndMarkers(ds: seq<Delivery>): nat
  {
    if ds == [] then 0 else (if ds[0].EndOfData? then 1 else 0) + EndMarkers(ds[1..])
  }

  /**
   Feeds a run of deliveries into the queue in order. On an open queue the
   data pages land at the back in delivery order, only data pages are counted
   as received, and each end marker counts one finished source.
   */
  function DeliverAll(q: Queue, ds: seq<Delivery>): (r: Transition)
    requires Valid(q)
    ensures Valid(r.queue)
    ensures q.closed ==> r.queue == q
    ensures !q.closed ==>
      && r.queue.pages == q.pages + DataPages(ds)
      && r.queue.receivedPages == q.receivedPages + |DataPages(ds)|
      && r.queue.receivedBytes == q.receivedBytes + Bytes(DataPages(ds))
      && r.queue.numCompleted == q.numCompleted + EndMarkers(ds)
    ensures r.queue.closed == q.closed && r.queue.numSources == q.numSources
    ensures r.queue.noMoreSources == q.noMoreSources
    ensures r.queue.peakBytes >= q.peakBytes
    ensures NoLostWakeup(q, r)
    decreases |ds|
  {
    if ds == [] || q.closed then Transition(q, [])
    else
      var first := Enqueue(q, ds[0]);
      var rest := DeliverAll(first.queue, ds[1..]);
      var head := if ds[0].Data? then [ds[0].page] else [];
      DeliverStep(ds, q.pages, first.queue.pages, head);
      Transition(rest.queue, first.resumed + rest.resumed)
  }

  /** One step of `DeliverAll`: the first delivery's data page (if any) lands
      in front of the rest's. */
  lemma DeliverStep(ds: seq<Delivery>, pages: seq<Page>, pages1: seq<Page>, head: seq<Page>)
    requires ds != [] && head == (if ds[0].Data? then [ds[0].page] else [])
    requires pages1 == pages + head
    ensures DataPages(ds) == head + DataPages(ds[1..])
    ensures pages + DataPages(ds) == pages1 + DataPages(ds[1..])
    ensures Bytes(DataPages(ds)) == Bytes(head) + Bytes(DataPages(ds[1..]))
  {
    var rest := DataPages(ds[1..]);
    assert DataPages(ds) == head + rest;
    assert pages + (head + rest) == (pages + head) + rest;
    BytesConcat(head, rest);
  }

  /** Wraps pages as data deliveries. */
  function AsDeliveries(pages: seq<Page>): (ds: seq<Delivery>)
    ensures |ds| == |pages|
    ensures forall i :: 0 <= i < |ds| ==> ds[i] == Data(pages[i])
  {
    if pages == [] then [] else [Data(pages[0])] + AsDeliveries(pages[1..])
  }

  /** Data pages and end markers of two runs add up. */
  lemma {:induction false} DeliveriesConcat(a: seq<Delivery>, b: seq<Delivery>)
    ensures DataPages(a + b) == DataPages(a) + DataPages(b)
    ensures EndMarkers(a + b) == EndMarkers(a) + EndMarkers(b)
    decreases |a|
  {
    if a != [] {
      assert (a + b)[1..] == a[1..] + b;
      DeliveriesConcat(a[1..], b);
    } else {
      assert a + b == b;
    }
  }

  /** Wrapped pages are all data, returned unchanged and in order. */
  lemma {:induction false} AsDeliveriesData(pages: seq<Page>)
    ensures DataPages(AsDeliveries(pages)) == pages
    ensures EndMarkers(AsDeliveries(pages)) == 0
    decreases |pages|
  {
    if pages != [] {
      var ds := AsDeliveries(pages);
      assert ds[1..] == AsDeliveries(pages[1..]);
      AsDeliveriesData(pages[1..]);
      assert [pages[0]] + pages[1..] == pages;
    }
  }

  /** The batches a consumer gets from successive pulls, one per limit. */
  datatype Drained = Drained(queue: Queue, delivered: seq<Page>)

  /**
   Pulls once per byte limit in `limits`, collecting the batches. Successive
   pulls hand out every page exactly once and in arrival order: what they
   delivered followed by what is left is what was queued.
   */
  function DrainAll(q: Queue, limits: seq<nat>): (r: Drained)
    requires Valid(q)
    ensures Valid(r.queue)
    ensures r.delivered + r.queue.pages == q.pages
    ensures r.queue.closed == q.closed
    ensures r.queue.peakBytes == q.peakBytes
    ensures r.queue.receivedPages == q.receivedPages && r.queue.receivedBytes == q.receivedBytes
    decreases |limits|
  {
    if limits == [] || q.closed then Drained(q, [])
    else
      var first := Next(q, limits[0]);
      var rest := DrainAll(first.queue, limits[1..]);
      DrainStep(q.pages, first.pages, first.queue.pages, rest.delivered, rest.queue.pages);
      Drained(rest.queue, first.pages + rest.delivered)
  }

  /** One step of `DrainAll`: a batch taken from the front followed by what
      later pulls take and leave is the whole queue. */
  lemma DrainStep(pages: seq<Page>, taken: seq<Page>, left: seq<Page>, later: seq<Page>, rest: seq<Page>)
    requires taken + left == pages && later + rest == left
    ensures (taken + later) + rest == pages
  {
  }

  /** One step a queue sees: a source pushes a delivery, or the consumer
      pulls under a byte limit. */
  datatype Op = Push(delivery: Delivery) | Pull(maxBytes: nat)

  /** The queue after an interleaving of pushes and pulls. */
  function Run(q: Queue, ops: seq<Op>): (r: Queue)
    requires Valid(q)
    ensures Valid(r)
    decreases |ops|
  {
    if ops == [] then q
    else
      var q' := match ops[0]
                case Push(d) => Enqueue(q, d).queue
                case Pull(m) => Next(q, m).queue;
      Run(q', ops[1..])
  }

  /** The data pages pushed in a run of steps, in order. */
  function Pushed(ops: seq<Op>): seq<Page>
  {
    if ops == [] then []
    else (if ops[0].Push? && ops[0].delivery.Data? then [ops[0].delivery.page] else []) + Pushed(ops[1..])
  }

  /** Running steps one after the other is running them together. */
  lemma {:induction false} RunConcat(q: Queue, a: seq<Op>, b: seq<Op>)
    requires Valid(q)
    ensures Run(q, a + b) == Run(Run(q, a), b)
    decreases |a|
  {
    if a == [] {
      assert a + b == b;
    } else {
      assert (a + b)[0] == a[0];
      assert (a + b)[1..] == a[1..] + b;
      var q' := match a[0]
                case Push(d) => Enqueue(q, d).queue
                case Pull(m) => Next(q, m).queue;
      RunConcat(q', a[1..], b);
    }
  }

  /**
   On an open queue the statistics count exactly the data pages pushed, never
   end markers or pulls: received pages and bytes grow by the pushed data
   pages, and the peak never falls.
   */
  lemma {:induction false} RunCountsDataPages(q: Queue, ops: seq<Op>)
    requires Valid(q) && !q.closed
    ensures Run(q, ops).receivedPages == q.receivedPages + |Pushed(ops)|
    ensures Run(q, ops).receivedBytes == q.receivedBytes + Bytes(Pushed(ops))
    ensures Run(q, ops).peakBytes >= q.peakBytes
    decreases |ops|
  {
    if ops != [] {
      var head := if ops[0].Push? && ops[0].delivery.Data? then [ops[0].delivery.page] else [];
      var q' := match ops[0]
                case Push(d) => Enqueue(q, d).queue
                case Pull(m) => Next(q, m).queue;
      RunCountsDataPages(q', ops[1..]);
      BytesConcat(head, Pushed(ops[1..]));
      assert Pushed(ops) == head + Pushed(ops[1..]);
      if head != [] {
        assert [ops[0].delivery.page][..0] == [];
        assert Bytes(head) == ops[0].delivery.page.bytes;
      }
    }
  }

  /**
   The statistics of a queue that has received nothing yet, after any
   interleaving of pushes and pulls: the page count is the number of data
   pages pushed, the average is their total size divided by that count,
   rounded down, and the peak lies between the bytes queued at any point of
   the run and the total pushed.
   */
  lemma StatsOfRun(q: Queue, ops: seq<Op>, i: nat)
    requires Valid(q) && !q.closed && q.receivedPages == 0 && q.receivedBytes == 0
    requires i <= |ops|
    ensures GetStats(Run(q, ops)).numReceivedPages == |Pushed(ops)|
    ensures |Pushed(ops)| > 0 ==>
      GetStats(Run(q, ops)).averageReceivedPageBytes == Bytes(Pushed(ops)) / |Pushed(ops)|
    ensures GetStats(Run(q, ops)).peakBytes <= Bytes(Pushed(ops))
    ensures Run(q, ops[..i]).totalBytes <= GetStats(Run(q, ops)).peakBytes
  {
    var r := Run(q, ops);
    RunCountsDataPages(q, ops);
    PeakAboveEveryPoint(q, ops, i);
    assert r.receivedPages == |Pushed(ops)| && r.receivedBytes == Bytes(Pushed(ops));
    assert GetStats(r).peakBytes == r.peakBytes <= r.receivedBytes;
  }

  /** The peak at the end of a run is at least the bytes queued at any point
      along it. */
  lemma PeakAboveEveryPoint(q: Queue, ops: seq<Op>, i: nat)
    requires Valid(q) && i <= |ops|
    ensures Run(q, ops[..i]).totalBytes <= Run(q, ops).peakBytes
  {
    assert ops == ops[..i] + ops[i..];
    RunConcat(q, ops[..i], ops[i..]);
    RunKeepsPeak(Run(q, ops[..i]), ops[i..]);
  }

  /** No step lowers the peak. */
  lemma {:induction false} RunKeepsPeak(q: Queue, ops: seq<Op>)
    requires Valid(q)
    ensures Run(q, ops).peakBytes >= q.peakBytes
    decreases |ops|
  {
    if ops != [] {
      var q' := match ops[0]
                case Push(d) => Enqueue(q, d).queue
                case Pull(m) => Next(q, m).queue;
      RunKeepsPeak(q', ops[1..]);
    }
  }

  // ---------------------------------------------------------------------
  // Properties relating several operations

  /** A consumer told to wait is resumed by the next page that arrives. */
  lemma PendingResumedByNextPage(q: Queue, maxBytes: nat, p: Page)
    requires Valid(q)
    requires Next(q, maxBytes).continuation.Pending?
    ensures Next(q, maxBytes).continuation.token in Enqueue(Next(q, maxBytes).queue, Data(p)).resumed
  {
    var r := Next(q, maxBytes);
    assert r.queue.waiting[|r.queue.waiting| - 1] == r.continuation.token;
  }

  /** Closing twice is the same as closing once, and resumes nobody new. */
  lemma CloseIdempotent(q: Queue)
    requires Valid(q)
    ensures Close(Close(q).queue) == Transition(Close(q).queue, [])
  {
  }

  /** Once closed, every pull returns no pages, reports the end and hands back
      no continuation, whatever was queued before closing. */
  lemma NextAfterClose(q: Queue, maxBytes: nat)
    requires Valid(q)
    ensures Next(Close(q).queue, maxBytes) == Dequeued(Close(q).queue, [], true, NoContinuation)
  {
  }

  /** The stream is never reported over while any page is still queued. */
  lemma NotAtEndWhilePagesRemain(q: Queue, maxBytes: nat)
    requires Valid(q) && !q.closed
    requires Next(q, maxBytes).atEnd
    ensures AllSourcesDone(q)
    ensures Next(q, maxBytes).pages == q.pages
  {
    var r := Next(q, maxBytes);
    assert r.pages + r.queue.pages == q.pages;
  }
}

=== FILE: local_source.dfy ===
/**
 An in-process fetch source: one round reads the next pages of one
 destination of a producer's output buffer, pushes them into the consumer's
 exchange queue in order (followed by the end marker once the producer has
 finished and nothing is left), and acknowledges what it read so the
 producer's bytes are released.
 */
module LocalSource {
  import opened Wrappers
  import opened Pages
  import EQ = ExchangeQueue
  import OB = OutputBuffer

  /** `sequence` is the number of the next page to request; `atEnd` is set
      once the end marker has been pushed. */
  datatype Source = Source(destination: nat, sequence: nat, atEnd: bool)

  /** Everything one round changes, and the suspended producers and consumers
      it let go. */
  datatype Round = Round(
    buffer: OB.Buffer,
    source: Source,
    queue: EQ.Queue,
    producersReleased: seq<nat>,
    consumersResumed: seq<nat>)

  /** The source and the buffer agree on which pages are still unacknowledged. */
  predicate InStep(b: OB.Buffer, s: Source)
  {
    s.destination < |b.destinations| && b.destinations[s.destination].firstSequence == s.sequence
  }

  /** Pushes what a read returned into the queue: its pages in order, then
      the end marker if the read reported the end. */
  function Push(q: EQ.Queue, f: OB.Fetched): (t: EQ.Transition)
    requires EQ.Valid(q)
    ensures EQ.Valid(t.queue)
    ensures !q.closed ==> t.queue.pages == q.pages + f.pages
    ensures !q.closed ==> t.queue.numCompleted == q.numCompleted + (if f.atEnd then 1 else 0)
    ensures t.queue.closed == q.closed && t.queue.numSources == q.numSources
    ensures t.queue.noMoreSources == q.noMoreSources
    ensures EQ.NoLostWakeup(q, t)
  {
    var ds := EQ.AsDeliveries(f.pages) + (if f.atEnd then [EQ.EndOfData] else []);
    ReadAsDeliveries(f);
    EQ.DeliverAll(q, ds)
  }

  /** The deliveries a read becomes: its pages, then one end marker exactly
      when it reported the end. */
  lemma ReadAsDeliveries(f: OB.Fetched)
    ensures var ds := EQ.AsDeliveries(f.pages) + (if f.atEnd then [EQ.EndOfData] else []);
      EQ.DataPages(ds) == f.pages && EQ.EndMarkers(ds) == (if f.atEnd then 1 else 0)
  {
    var end := if f.atEnd then [EQ.EndOfData] else [];
    EQ.AsDeliveriesData(f.pages);
    EQ.DeliveriesConcat(EQ.AsDeliveries(f.pages), end);
    assert EQ.EndMarkers(end) == (if f.atEnd then 1 else 0);
    assert EQ.DataPages(end) == [];
  }

  /** Acknowledges the pages a read returned, releasing their bytes. */
  function AcknowledgeRead(b: OB.Buffer, s: Source, f: OB.Fetched): (a: OB.Released)
    requires OB.Valid(b) && s.destination < |b.destinations|
    ensures OB.Valid(a.buffer)
    ensures a.buffer.ceiling == b.ceiling && a.buffer.noMoreData == b.noMoreData
    ensures |a.buffer.destinations| == |b.destinations|
    ensures forall i :: 0 <= i < |b.destinations| && i != s.destination ==>
      a.buffer.destinations[i] == b.destinations[i]
    ensures a.buffer.bufferedBytes < b.ceiling ==> a.released == b.blocked
    ensures InStep(b, s) && f.pages <= b.destinations[s.destination].pages ==>
      && a.buffer.destinations[s.destination]
         == OB.Destination(s.sequence + |f.pages|, b.destinations[s.destination].pages[|f.pages|..])
      && a.buffer.bufferedBytes + Bytes(f.pages) == b.bufferedBytes
  {
    var d := b.destinations[s.destination];
    var a := OB.Acknowledge(b, s.destination, s.sequence + |f.pages|).value;
    if InStep(b, s) && f.pages <= d.pages then
      assert OB.AcknowledgedCount(d, s.sequence + |f.pages|) == |f.pages|;
      assert d.pages[..|f.pages|] == f.pages;
      a
    else a
  }

  /**
   What a round that read `f` leaves behind, from buffer `b`, source `s`
   and queue `q`: both sides stay valid; on an open queue the pages read are
   appended in order and the end marker is counted exactly when the read
   reported the end; the source moves past what it read; a source in step
   with the buffer frees exactly the bytes it read, drops exactly those pages
   from its destination and stays in step; other destinations are untouched;
   suspended producers are released once the buffer is below its ceiling;
   and a consumer that stops waiting was resumed by the round.
   */
  predicate RoundFrom(b: OB.Buffer, s: Source, q: EQ.Queue, f: OB.Fetched, r: Round)
  {
    && OB.Valid(r.buffer) && EQ.Valid(r.queue)
    && (!q.closed ==> r.queue.pages == q.pages + f.pages)
    && (!q.closed ==> r.queue.numCompleted == q.numCompleted + (if f.atEnd then 1 else 0))
    && r.queue.closed == q.closed && r.queue.numSources == q.numSources
    && r.queue.noMoreSources == q.noMoreSources
    && |r.buffer.destinations| == |b.destinations|
    && r.source == Source(s.destination, s.sequence + |f.pages|, f.atEnd)
    && (InStep(b, s) ==> InStep(r.buffer, r.source))
    && (InStep(b, s) ==> r.buffer.bufferedBytes + Bytes(f.pages) == b.bufferedBytes)
    && (InStep(b, s) ==>
          && f.pages <= b.destinations[s.destination].pages
          && r.buffer.destinations[s.destination].pages == b.destinations[s.destination].pages[|f.pages|..])
    && (forall i :: 0 <= i < |b.destinations| && i != s.destination ==>
          r.buffer.destinations[i] == b.destinations[i])
    && (r.buffer.bufferedBytes < b.ceiling ==> r.producersReleased == b.blocked)
    && r.buffer.ceiling == b.ceiling && r.buffer.noMoreData == b.noMoreData
    && EQ.NoLostWakeup(q, EQ.Transition(r.queue, r.consumersResumed))
  }

  /** Completes a round once the read `f` has been answered: pushes it into
      the queue and acknowledges it in the buffer. */
  function Complete(b: OB.Buffer, s: Source, q: EQ.Queue, f: OB.Fetched): (r: Round)
    requires OB.Valid(b) && EQ.Valid(q) && s.destination < |b.destinations|
    requires InStep(b, s) ==> f.pages <= b.destinations[s.destination].pages
    ensures RoundFrom(b, s, q, f, r)
  {
    var t := Push(q, f);
    var a := AcknowledgeRead(b, s, f);
    Round(a.buffer, Source(s.destination, s.sequence + |f.pages|, f.atEnd), t.queue, a.released, t.resumed)
  }

  /**
   One fetch round with a byte limit of `maxBytes`. A finished source does
   nothing; a read the buffer refuses fails the round; otherwise the round
   leaves behind what `RoundFrom` describes for the pages read.
   */
  function Transfer(b: OB.Buffer, s: Source, q: EQ.Queue, maxBytes: nat): (r: Result<Round, OB.BufferError>)
    requires OB.Valid(b) && EQ.Valid(q)
    ensures s.atEnd ==> r == Success(Round(b, s, q, [], []))
    ensures !s.atEnd ==> (r.Failure? <==> OB.Fetch(b, s.destination, s.sequence, maxBytes).Failure?)
    ensures !s.atEnd && r.Success? ==>
      RoundFrom(b, s, q, OB.Fetch(b, s.destination, s.sequence, maxBytes).value, r.value)
  {
    if s.atEnd then Success(Round(b, s, q, [], []))
    else
      var read := OB.Fetch(b, s.destination, s.sequence, maxBytes);
      if read.Failure? then Failure(read.error)
      else
        ReadFromFront(b, s, maxBytes);
        Success(Complete(b, s, q, read.value))
  }

  /** A source in step reads from the front of its destination's pages. */
  lemma ReadFromFront(b: OB.Buffer, s: Source, maxBytes: nat)
    requires OB.Valid(b) && s.destination < |b.destinations|
    requires OB.Fetch(b, s.destination, s.sequence, maxBytes).Success?
    ensures InStep(b, s) ==>
      OB.Fetch(b, s.destination, s.sequence, maxBytes).value.pages <= b.destinations[s.destination].pages
  {
    if InStep(b, s) {
      var d := b.destinations[s.destination];
      assert d.pages == [] || d.pages[s.sequence - d.firstSequence..] == d.pages;
    }
  }
}

=== FILE: output_buffer.dfy ===
/**
 The producer side: one task's output buffer, holding pages per destination
 until the consumer acknowledges them, against a byte ceiling shared by all
 destinations. A producer whose enqueue leaves the buffer at or above the
 ceiling is suspended until acknowledgements bring it back below.
 */
module OutputBuffer {
  import opened Wrappers
  import opened Pages
  import opened Continuations

  /** The pages held for one destination; `pages[i]` carries sequence number
      `firstSequence + i`, and everything before `firstSequence` has been
      acknowledged. */
  datatype Destination = Destination(firstSequence: nat, pages: seq<Page>)

  datatype Buffer = Buffer(
    ceiling: nat,                     // maximum buffered bytes before producers wait
    destinations: seq<Destination>,
    bufferedBytes: nat,               // bytes held over all destinations
    noMoreData: bool,                 // the producer has finished
    blocked: seq<nat>,                // suspended producers, oldest first
    nextToken: nat)

  datatype BufferError = UnknownDestination | EnqueueAfterNoMoreData | SequenceAlreadyAcknowledged

  /** Bytes held over a list of destinations. */
  function HeldBytes(ds: seq<Destination>): nat
  {
    if ds == [] then 0 else HeldBytes(ds[..|ds| - 1]) + Bytes(ds[|ds| - 1].pages)
  }

  /** Replacing one destination changes the total by the difference of the
      two destinations' bytes. */
  lemma {:induction false} HeldBytesUpdate(ds: seq<Destination>, i: nat, d: Destination)
    requires i < |ds|
    ensures HeldBytes(ds[i := d]) + Bytes(ds[i].pages) == HeldBytes(ds) + Bytes(d.pages)
    decreases |ds|
  {
    var last := |ds| - 1;
    assert ds[i := d][..last] == if i == last then ds[..last] else ds[..last][i := d];
    if i < last {
      HeldBytesUpdate(ds[..last], i, d);
    }
  }

  /** Destinations without pages hold no bytes. */
  lemma {:induction false} HeldBytesNone(ds: seq<Destination>)
    requires forall i :: 0 <= i < |ds| ==> ds[i].pages == []
    ensures HeldBytes(ds) == 0
    decreases |ds|
  {
    if ds != [] {
      HeldBytesNone(ds[..|ds| - 1]);
    }
  }

  /** The invariant every reachable buffer keeps: the byte counter matches the
      pages held, and producers wait only while the buffer is at or above its
      ceiling. */
  predicate Valid(b: Buffer)
  {
    && b.bufferedBytes == HeldBytes(b.destinations)
    && (b.blocked != [] ==> b.bufferedBytes >= b.ceiling)
    && Outstanding(b.blocked, b.nextToken)
  }

  /** Replaces one destination, keeping the byte counter in step with the
      pages held. */
  function ReplaceDestination(b: Buffer, i: nat, d: Destination): (b': Buffer)
    requires b.bufferedBytes == HeldBytes(b.destinations) && i < |b.destinations|
    ensures b'.bufferedBytes == HeldBytes(b'.destinations)
    ensures b'.destinations == b.destinations[i := d]
    ensures b'.bufferedBytes + Bytes(b.destinations[i].pages) == b.bufferedBytes + Bytes(d.pages)
    ensures b'.ceiling == b.ceiling && b'.noMoreData == b.noMoreData
    ensures b'.blocked == b.blocked && b'.nextToken == b.nextToken
  {
    HeldBytesUpdate(b.destinations, i, d);
    b.(destinations := b.destinations[i := d],
       bufferedBytes := b.bufferedBytes + Bytes(d.pages) - Bytes(b.destinations[i].pages))
  }

  /** A buffer for a task with `numDestinations` destinations. */
  function Initialize(ceiling: nat, numDestinations: nat): (b: Buffer)
    ensures Valid(b)
    ensures |b.destinations| == numDestinations && b.bufferedBytes == 0
    ensures forall i :: 0 <= i < numDestinations ==> b.destinations[i] == Destination(0, [])
    ensures !b.noMoreData && b.blocked == [] && b.ceiling == ceiling
  {
    var ds := seq(numDestinations, _ => Destination(0, []));
    HeldBytesNone(ds);
    Buffer(ceiling, ds, 0, false, [], 0)
  }

  /** Result of an enqueue: the buffer afterwards, and the continuation the
      producer must wait on (none when it may go on at once). */
  datatype Enqueued = Enqueued(buffer: Buffer, continuation: Continuation)

  /**
   Appends a page for one destination. The producer is blocked exactly when
   the buffer then holds at least its ceiling; other destinations are
   untouched. Unknown destinations and pages after the end are refused.
   */
  function Enqueue(b: Buffer, destination: nat, page: Page): (r: Result<Enqueued, BufferError>)
    requires Valid(b)
    ensures destination >= |b.destinations| ==> r == Failure(UnknownDestination)
    ensures destination < |b.destinations| && b.noMoreData ==> r == Failure(EnqueueAfterNoMoreData)
    ensures destination < |b.destinations| && !b.noMoreData ==> r.Success?
    ensures r.Success? ==>
      var b' := r.value.buffer;
      && Valid(b')
      && b'.bufferedBytes == b.bufferedBytes + page.bytes
      && |b'.destinations| == |b.destinations|
      && b'.destinations[destination].pages == b.destinations[destination].pages + [page]
      && b'.destinations[destination].firstSequence == b.destinations[destination].firstSequence
      && (forall i :: 0 <= i < |b.destinations| && i != destination ==> b'.destinations[i] == b.destinations[i])
      && (r.value.continuation.Pending? <==> b'.bufferedBytes >= b.ceiling)
      && (r.value.continuation.Pending? ==> b'.blocked == b.blocked + [r.value.continuation.token])
      && (r.value.continuation.NoContinuation? ==> b'.blocked == b.blocked)
      && b'.ceiling == b.ceiling && b'.noMoreData == b.noMoreData
  {
    if destination >= |b.destinations| then Failure(UnknownDestination)
    else if b.noMoreData then Failure(EnqueueAfterNoMoreData)
    else
      var d := b.destinations[destination];
      var d' := d.(pages := d.pages + [page]);
      BytesConcat(d.pages, [page]);
      var b' := ReplaceDestination(b, destination, d');
      if b'.bufferedBytes >= b.ceiling then
        OutstandingAppend(b.blocked, b.nextToken);
        Success(Enqueued(b'.(blocked := b.blocked + [b.nextToken], nextToken := b.nextToken + 1),
                         Pending(b.nextToken)))
      else
        Success(Enqueued(b', NoContinuation))
  }

  /** What a read returns: pages from the requested sequence number on, and
      whether the producer has finished and nothing is left from there. */
  datatype Fetched = Fetched(pages: seq<Page>, atEnd: bool)

  /**
   Reads pages for one destination starting at sequence number `sequence`,
   at most a batch `IsBatch` allows under `maxBytes`, without removing them.
   Reading before the first unacknowledged page is refused; reading past the
   last page returns nothing, and reports the end once the producer has
   finished.
   */
  function Fetch(b: Buffer, destination: nat, sequence: nat, maxBytes: nat): (r: Result<Fetched, BufferError>)
    requires Valid(b)
    ensures destination >= |b.destinations| ==> r == Failure(UnknownDestination)
    ensures destination < |b.destinations| ==>
      var d := b.destinations[destination];
      && (sequence < d.firstSequence ==> r == Failure(SequenceAlreadyAcknowledged))
      && (sequence >= d.firstSequence ==>
            var held := if sequence - d.firstSequence < |d.pages| then d.pages[sequence - d.firstSequence..] else [];
            && r.Success?
            && r.value.pages <= held
            && IsBatch(held, maxBytes, |r.value.pages|)
            && (r.value.atEnd <==> b.noMoreData && held == []))
  {
    if destination >= |b.destinations| then Failure(UnknownDestination)
    else
      var d := b.destinations[destination];
      if sequence < d.firstSequence then Failure(SequenceAlreadyAcknowledged)
      else
        var held := if sequence - d.firstSequence < |d.pages| then d.pages[sequence - d.firstSequence..] else [];
        var k := BatchLength(held, maxBytes);
        Success(Fetched(held[..k], b.noMoreData && held == []))
  }

  /** How many held pages of `d` an acknowledgement up to (excluding)
      `sequence` covers. */
  function AcknowledgedCount(d: Destination, sequence: nat): (n: nat)
    ensures n <= |d.pages|
    ensures 0 < n ==> d.firstSequence + (n - 1) < sequence
    ensures n < |d.pages| ==> sequence <= d.firstSequence + n
  {
    if sequence <= d.firstSequence then 0
    else if sequence - d.firstSequence <= |d.pages| then sequence - d.firstSequence
    else |d.pages|
  }

  /** The held page at position `i` is covered by an acknowledgement up to
      `sequence` exactly when its sequence number is below `sequence`. */
  lemma AcknowledgedCountCovers(d: Destination, sequence: nat, i: nat)
    requires i < |d.pages|
    ensures i < AcknowledgedCount(d, sequence) <==> d.firstSequence + i < sequence
  {
  }

  /** Result of a call that may release suspended producers. */
  datatype Released = Released(buffer: Buffer, released: seq<nat>)

  /**
   Acknowledges every page of one destination with a sequence number below
   `sequence`, freeing their bytes (an acknowledgement beyond the last page
   frees all of them; one at or before the first held page frees nothing).
   Once the buffer is below its ceiling, every suspended producer is
   released, oldest first.
   */
  function Acknowledge(b: Buffer, destination: nat, sequence: nat): (r: Result<Released, BufferError>)
    requires Valid(b)
    ensures destination >= |b.destinations| <==> r.Failure?
    ensures r.Failure? ==> r.error == UnknownDestination
    ensures r.Success? ==>
      var d := b.destinations[destination];
      var b' := r.value.buffer;
      var n := AcknowledgedCount(d, sequence);
      && Valid(b')
      && |b'.destinations| == |b.destinations|
      && b'.destinations[destination] == Destination(d.firstSequence + n, d.pages[n..])
      && (forall i :: 0 <= i < |b.destinations| && i != destination ==> b'.destinations[i] == b.destinations[i])
      && b'.bufferedBytes + Bytes(d.pages[..n]) == b.bufferedBytes
      && (b'.bufferedBytes < b.ceiling ==> r.value.released == b.blocked && b'.blocked == [])
      && (b'.bufferedBytes >= b.ceiling ==> r.value.released == [] && b'.blocked == b.blocked)
      && b'.ceiling == b.ceiling && b'.noMoreData == b.noMoreData
  {
    if destination >= |b.destinations| then Failure(UnknownDestination)
    else
      var d := b.destinations[destination];
      var n := AcknowledgedCount(d, sequence);
      var d' := Destination(d.firstSequence + n, d.pages[n..]);
      assert d.pages[..n] + d.pages[n..] == d.pages;
      BytesConcat(d.pages[..n], d.pages[n..]);
      var b' := ReplaceDestination(b, destination, d');
      if b'.bufferedBytes < b.ceiling then Success(Released(b'.(blocked := []), b.blocked))
      else Success(Released(b', []))
  }

  /** Marks the producer finished; reads past the last page then report the
      end. */
  function NoMoreData(b: Buffer): (b': Buffer)
    requires Valid(b)
    ensures Valid(b') && b'.noMoreData
    ensures b'.destinations == b.destinations && b'.bufferedBytes == b.bufferedBytes
    ensures b'.blocked == b.blocked
  {
    b.(noMoreData := true)
  }

  /** Drops every held page at once, regardless of acknowledgements, and
      releases every suspended producer (used when the task is cancelled). */
  function RemoveTask(b: Buffer): (r: Released)
    requires Valid(b)
    ensures Valid(r.buffer)
    ensures r.buffer.bufferedBytes == 0 && r.buffer.blocked == [] && r.released == b.blocked
    ensures |r.buffer.destinations| == |b.destinations|
    ensures forall i :: 0 <= i < |b.destinations| ==> r.buffer.destinations[i].pages == []
  {
    var ds := seq(|b.destinations|, i requires 0 <= i < |b.destinations| =>
                    Destination(b.destinations[i].firstSequence + |b.destinations[i].pages|, []));
    HeldBytesNone(ds);
    Released(b.(destinations := ds, bufferedBytes := 0, blocked := []), b.blocked)
  }

  /** A page enqueued for a destination is what a read at its sequence
      number returns, without the end. */
  lemma EnqueuedPageIsRead(b: Buffer, destination: nat, page: Page, maxBytes: nat)
    requires Valid(b) && destination < |b.destinations| && !b.noMoreData
    ensures var d := b.destinations[destination];
      var b' := Enqueue(b, destination, page).value.buffer;
      Fetch(b', destination, d.firstSequence + |d.pages|, maxBytes) == Success(Fetched([page], false))
  {
    var d := b.destinations[destination];
    var b' := Enqueue(b, destination, page).value.buffer;
    var d' := b'.destinations[destination];
    assert d' == Destination(d.firstSequence, d.pages + [page]);
    var held := d'.pages[|d.pages|..];
    assert held == [page];
    var r := Fetch(b', destination, d.firstSequence + |d.pages|, maxBytes);
    assert r.Success? && r.value.pages <= held && IsBatch(held, maxBytes, |r.value.pages|);
    assert IsBatch([page], maxBytes, 1);
    BatchUnique([page], maxBytes, |r.value.pages|, 1);
    assert r.value.pages == [page];
    assert !r.value.atEnd;
  }

  /** Acknowledging a page right after enqueueing it for an empty
      destination gives back exactly the bytes it took and leaves the
      destination empty, one sequence number further on. */
  lemma AcknowledgeUndoesEnqueue(b: Buffer, destination: nat, page: Page)
    requires Valid(b) && destination < |b.destinations| && !b.noMoreData
    requires b.destinations[destination].pages == []
    ensures var d := b.destinations[destination];
      var b' := Enqueue(b, destination, page).value.buffer;
      var a := Acknowledge(b', destination, d.firstSequence + 1).value;
      && a.buffer.bufferedBytes == b.bufferedBytes
      && a.buffer.destinations[destination] == Destination(d.firstSequence + 1, [])
  {
    var b' := Enqueue(b, destination, page).value.buffer;
    AcknowledgeOnlyPage(b', destination, page);
  }

  /** Acknowledging the only page a destination holds empties it and frees
      that page's bytes. */
  lemma AcknowledgeOnlyPage(b: Buffer, destination: nat, page: Page)
    requires Valid(b) && destination < |b.destinations|
    requires b.destinations[destination].pages == [page]
    ensures var d := b.destinations[destination];
      var a := Acknowledge(b, destination, d.firstSequence + 1).value;
      && a.buffer.bufferedBytes + page.bytes == b.bufferedBytes
      && a.buffer.destinations[destination] == Destination(d.firstSequence + 1, [])
  {
    var d := b.destinations[destination];
    assert AcknowledgedCount(d, d.firstSequence + 1) == 1;
    assert d.pages[..1] == [page] && d.pages[1..] == [];
    assert Bytes([page]) == page.bytes;
  }

  /** A utilization, buffered bytes over ceiling, kept as an exact fraction. */
  datatype Ratio = Ratio(num: nat, den: nat)

  /** `u` equals the fraction `num / den`. */
  predicate RatioIs(u: Ratio, num: nat, den: nat)
  {
    u.num * den == u.den * num
  }

  /** How full the buffer is: the bytes of all held pages over the ceiling. */
  function Utilization(b: Buffer): (u: Ratio)
    requires Valid(b)
    ensures u.num == HeldBytes(b.destinations) && u.den == b.ceiling
  {
    Ratio(b.bufferedBytes, b.ceiling)
  }

  /** A buffer whose pages have all been acknowledged is empty. */
  lemma UtilizationZeroWhenDrained(b: Buffer)
    requires Valid(b)
    requires forall i :: 0 <= i < |b.destinations| ==> b.destinations[i].pages == []
    ensures RatioIs(Utilization(b), 0, 1)
  {
    HeldBytesNone(b.destinations);
  }

  /** Acknowledging every page of the only non-empty destination releases
      every suspended producer, provided the ceiling is positive. */
  lemma AcknowledgeAllReleases(b: Buffer, destination: nat, sequence: nat)
    requires Valid(b) && b.ceiling > 0 && destination < |b.destinations|
    requires forall i :: 0 <= i < |b.destinations| && i != destination ==> b.destinations[i].pages == []
    requires sequence >= b.destinations[destination].firstSequence + |b.destinations[destination].pages|
    ensures Acknowledge(b, destination, sequence).Success?
    ensures Acknowledge(b, destination, sequence).value.released == b.blocked
    ensures Acknowledge(b, destination, sequence).value.buffer.bufferedBytes == 0
  {
    var b' := Acknowledge(b, destination, sequence).value.buffer;
    assert forall i :: 0 <= i < |b'.destinations| ==> b'.destinations[i].pages == [];
    HeldBytesNone(b'.destinations);
  }
}

=== FILE: pages.dfy ===
/**
 Serialized pages and the byte accounting shared by the producer buffer and
 the consumer's exchange queue.
 */
module Pages {

  /** A serialized page; the model knows it only by its size in bytes. */
  datatype Page = Page(bytes: nat)

  /** Total size of a run of pages. */
  function Bytes(pages: seq<Page>): nat
  {
    if pages == [] then 0 else Bytes(pages[..|pages| - 1]) + pages[|pages| - 1].bytes
  }

  /** Byte totals add up over concatenation. */
  lemma {:induction false} BytesConcat(a: seq<Page>, b: seq<Page>)
    ensures Bytes(a + b) == Bytes(a) + Bytes(b)
    decreases |b|
  {
    if b == [] {
      assert a + b == a;
    } else {
      var b' := b[..|b| - 1];
      assert (a + b)[..|a + b| - 1] == a + b';
      BytesConcat(a, b');
    }
  }

  /** A longer prefix never holds fewer bytes. */
  lemma BytesPrefixMonotone(pages: seq<Page>, i: nat, j: nat)
    requires i <= j <= |pages|
    ensures Bytes(pages[..i]) <= Bytes(pages[..j])
  {
    assert pages[..i] + pages[i..j] == pages[..j];
    BytesConcat(pages[..i], pages[i..j]);
  }

  /**
   `k` is the length of the batch one drain takes from the front of `pages`
   under a byte limit: pages are never split, the first queued page is always
   taken (even when it alone exceeds the limit), a batch of two or more pages
   stays within the limit, and the drain stops only at the end of the queue
   or before the page that would push the batch past the limit.
   */
  predicate IsBatch(pages: seq<Page>, maxBytes: nat, k: nat)
  {
    && k <= |pages|
    && (pages != [] ==> 1 <= k)
    && (2 <= k ==> Bytes(pages[..k]) <= maxBytes)
    && (1 <= k < |pages| ==> Bytes(pages[..k + 1]) > maxBytes)
  }

  /** At most one batch length fits the description above. */
  lemma BatchUnique(pages: seq<Page>, maxBytes: nat, k1: nat, k2: nat)
    requires IsBatch(pages, maxBytes, k1) && IsBatch(pages, maxBytes, k2)
    ensures k1 == k2
  {
    if k1 < k2 {
      BytesPrefixMonotone(pages, k1 + 1, k2);
    } else if k2 < k1 {
      BytesPrefixMonotone(pages, k2 + 1, k1);
    }
  }

  /** The number of pages one drain under `maxBytes` takes. */
  function BatchLength(pages: seq<Page>, maxBytes: nat): (k: nat)
    ensures IsBatch(pages, maxBytes, k)
  {
    if pages == [] then 0 else ExtendBatch(pages, maxBytes, 1, pages[0].bytes)
  }

  /** Grows a batch of `k` pages holding `taken` bytes page by page, taking
      the next page only while the batch stays within `maxBytes`. */
  function ExtendBatch(pages: seq<Page>, maxBytes: nat, k: nat, taken: nat): (r: nat)
    requires 1 <= k <= |pages|
    requires taken == Bytes(pages[..k])
    requires 2 <= k ==> taken <= maxBytes
    ensures k <= r && IsBatch(pages, maxBytes, r)
    decreases |pages| - k
  {
    if k == |pages| then k
    else
      assert pages[..k + 1][..k] == pages[..k];
      if taken + pages[k].bytes > maxBytes then k
      else ExtendBatch(pages, maxBytes, k + 1, taken + pages[k].bytes)
  }
}

=== FILE: scenarios.dfy ===
/**
 The exchange client's test scenarios restated over the model: each replay
 performs the test's steps on the model and its postcondition is what the
 test asserts.
 */
module ExchangeClientScenarios {
  import opened Wrappers
  import opened Pages
  import opened Continuations
  import EQ = ExchangeQueue
  import opened ExchangeClient
  import OB = OutputBuffer
  import LS = LocalSource

  /** What a test observes of one pull: the number of pages, whether the
      stream is over, and whether the returned future is valid. */
  datatype Seen = Seen(numPages: nat, atEnd: bool, futureValid: bool)

  function See(p: Pulled): Seen
  {
    Seen(|p.pages|, p.atEnd, p.continuation.Pending?)
  }

  /** A page of `size` bytes, as the test's `makePage` helper builds it
      (`ExchangeClientTest.cpp:136`). */
  function MakePage(size: nat): Page
  {
    Page(size)
  }

  /** Ten pages of 1000 to 1009 bytes, in that order. */
  function TenPages(): seq<Page>
  {
    seq(10, i requires 0 <= i < 10 => MakePage(1000 + i))
  }

  /** Pushes deliveries straight into a client's queue, as the tests do. */
  function Deliver(c: Client, ds: seq<EQ.Delivery>): (c': Client)
    requires Valid(c)
    ensures Valid(c')
    ensures !Closed(c) ==> c'.queue.pages == c.queue.pages + EQ.DataPages(ds)
    ensures !Closed(c) ==> c'.queue.numCompleted == c.queue.numCompleted + EQ.EndMarkers(ds)
    ensures Closed(c') == Closed(c) && c'.queue.numSources == c.queue.numSources
    ensures c'.queue.noMoreSources == c.queue.noMoreSources
  {
    c.(queue := EQ.DeliverAll(c.queue, ds).queue)
  }

  /** Bytes of the first `k` pages of a run of pages sized `a`, `a + 1`, ... */
  lemma {:induction false} RunBytes(s: seq<Page>, a: nat, k: nat)
    requires k <= |s|
    requires forall i :: 0 <= i < |s| ==> s[i] == Page(a + i)
    ensures 2 * Bytes(s[..k]) == k * (2 * a + k - 1)
    decreases k
  {
    if k > 0 {
      RunBytes(s, a, k - 1);
      assert s[..k][..k - 1] == s[..k - 1];
      assert Bytes(s[..k]) == Bytes(s[..k - 1]) + a + k - 1;
      assert k * (2 * a + k - 1) == (k - 1) * (2 * a + k - 2) + 2 * (a + k - 1);
    }
  }

  /** A page bigger than the limit at the front of the queue comes out alone
      and whole. */
  lemma OversizedPageAlone(c: Client, maxBytes: nat)
    requires Valid(c) && !Closed(c) && c.queue.pages != []
    requires c.queue.pages[0].bytes > maxBytes
    ensures Next(c, maxBytes).pages == [c.queue.pages[0]]
  {
    var pages := c.queue.pages;
    if |pages| > 1 {
      RunBytesPair(pages);
    }
    BatchUnique(pages, maxBytes, |Next(c, maxBytes).pages|, 1);
  }

  lemma RunBytesPair(pages: seq<Page>)
    requires |pages| > 1
    ensures Bytes(pages[..2]) == pages[0].bytes + pages[1].bytes
  {
    assert pages[..2][..1] == pages[..1];
    assert pages[..1][..0] == [];
    assert Bytes(pages[..1]) == Bytes(pages[..1][..0]) + pages[0].bytes;
    assert Bytes(pages[..2]) == Bytes(pages[..2][..1]) + pages[1].bytes;
  }

  /** A pull from a queue holding pages sized `a`, `a + 1`, ... takes exactly
      the first `k` of them when that many fit the limit and one more would
      not. */
  lemma PullFromRun(c: Client, a: nat, maxBytes: nat, k: nat)
    requires Valid(c) && !Closed(c) && 2 <= k <= |c.queue.pages|
    requires forall i :: 0 <= i < |c.queue.pages| ==> c.queue.pages[i] == Page(a + i)
    requires k * (2 * a + k - 1) <= 2 * maxBytes
    requires k < |c.queue.pages| ==> (k + 1) * (2 * a + k) > 2 * maxBytes
    ensures Next(c, maxBytes).pages == c.queue.pages[..k]
    ensures Next(c, maxBytes).client.queue.pages == c.queue.pages[k..]
  {
    var pages := c.queue.pages;
    RunBytes(pages, a, k);
    if k < |pages| {
      RunBytes(pages, a, k + 1);
    }
    assert IsBatch(pages, maxBytes, k);
    var r := Next(c, maxBytes);
    BatchUnique(pages, maxBytes, |r.pages|, k);
    assert r.pages + r.client.queue.pages == pages;
    assert r.pages == pages[..k];
  }

  /** `c` is open and valid and holds exactly `pages`. */
  predicate Holds(c: Client, pages: seq<Page>)
  {
    Valid(c) && !Closed(c) && c.queue.pages == pages
  }

  /** The source bookkeeping of `c'` is that of `c`. */
  predicate SameSources(c: Client, c': Client)
  {
    && c'.queue.numSources == c.queue.numSources
    && c'.queue.numCompleted == c.queue.numCompleted
    && c'.queue.noMoreSources == c.queue.noMoreSources
  }

  /** `n` end markers. */
  function EndMarkerRun(n: nat): (ds: seq<EQ.Delivery>)
    ensures EQ.DataPages(ds) == [] && EQ.EndMarkers(ds) == n
  {
    if n == 0 then [] else [EQ.EndOfData] + EndMarkerRun(n - 1)
  }

  // Steps of the replays below.

  /** A pull on a new client, before any source exists, waits. */
  method PullOnNewClient() returns (seen: Seen, c: Client)
    ensures seen == Seen(0, false, true)
    ensures Holds(c, []) && c.remoteTaskIds == {}
    ensures c.queue.numSources == 0 && c.queue.numCompleted == 0 && !c.queue.noMoreSources
  {
    var p := Next(Create(), 1);
    seen, c := See(p), p.client;
  }

  /** A pull on an empty queue whose stream is not over waits. */
  method PullWhileEmpty(c: Client, maxBytes: nat) returns (seen: Seen, c': Client)
    requires Holds(c, []) && !EQ.AllSourcesDone(c.queue)
    ensures seen == Seen(0, false, true)
    ensures Holds(c', []) && SameSources(c, c')
  {
    var p := Next(c, maxBytes);
    seen, c' := See(p), p.client;
  }

  /** A pull once every source has ended and nothing is queued reports the
      end. */
  method PullAfterEnd(c: Client, maxBytes: nat) returns (seen: Seen)
    requires Holds(c, []) && EQ.AllSourcesDone(c.queue)
    ensures seen == Seen(0, true, false)
  {
    seen := See(Next(c, maxBytes));
  }

  /** A pull on a closed client reports the end. */
  method PullAfterClose(c: Client, maxBytes: nat) returns (seen: Seen, c': Client)
    requires Valid(c) && Closed(c)
    ensures seen == Seen(0, true, false)
    ensures Valid(c') && Closed(c')
  {
    var p := Next(c, maxBytes);
    seen, c' := See(p), p.client;
  }

  /** Registers `n` sources on the queue and declares the set complete. */
  method AddSources(c: Client, n: nat) returns (c': Client)
    requires Holds(c, []) && !c.queue.noMoreSources
    ensures Holds(c', []) && c'.queue.noMoreSources
    ensures c'.queue.numSources == c.queue.numSources + n
    ensures c'.queue.numCompleted == c.queue.numCompleted
  {
    c' := c;
    var i := 0;
    while i < n
      invariant i <= n
      invariant Holds(c', []) && !c'.queue.noMoreSources
      invariant c'.queue.numSources == c.queue.numSources + i
      invariant c'.queue.numCompleted == c.queue.numCompleted
    {
      c' := c'.(queue := EQ.AddSource(c'.queue).value);
      i := i + 1;
    }
    c' := NoMoreRemoteTasks(c').client;
  }

  /** Registers the three local sources the tests use and declares the set
      complete. */
  method AddThreeRemoteTasks(c: Client) returns (c': Client)
    requires Holds(c, []) && !c.queue.noMoreSources && c.remoteTaskIds == {}
    ensures Holds(c', []) && c'.queue.noMoreSources
    ensures c'.queue.numSources == c.queue.numSources + 3
    ensures c'.queue.numCompleted == c.queue.numCompleted
  {
    var c1 := AddRemoteTaskId(c, "local://0", Created).value;
    var c2 := AddRemoteTaskId(c1, "local://1", Created).value;
    var c3 := AddRemoteTaskId(c2, "local://2", Created).value;
    c' := NoMoreRemoteTasks(c3).client;
  }

  /** Pushes pages into an empty queue, in order. */
  method PushPages(c: Client, pages: seq<Page>) returns (c': Client)
    requires Holds(c, [])
    ensures Holds(c', pages) && SameSources(c, c')
  {
    EQ.AsDeliveriesData(pages);
    c' := Deliver(c, EQ.AsDeliveries(pages));
  }

  /** Pushes `n` end markers. */
  method PushEndMarkers(c: Client, n: nat) returns (c': Client)
    requires Holds(c, [])
    ensures Holds(c', [])
    ensures c'.queue.numSources == c.queue.numSources
    ensures c'.queue.noMoreSources == c.queue.noMoreSources
    ensures c'.queue.numCompleted == c.queue.numCompleted + n
  {
    c' := Deliver(c, EndMarkerRun(n));
  }

  /** A pull of one byte from the ten test pages returns the first alone. */
  method PullFirstPage(c: Client) returns (seen: Seen, c': Client)
    requires Holds(c, TenPages()) && !EQ.AllSourcesDone(c.queue)
    ensures seen == Seen(1, false, false)
    ensures Holds(c', TenPages()[1..]) && SameSources(c, c')
  {
    OversizedPageAlone(c, 1);
    var p := Next(c, 1);
    assert p.pages + p.client.queue.pages == TenPages();
    seen, c' := See(p), p.client;
  }

  /** A pull from queued pages sized `a`, `a + 1`, ... returns the first `k`
      when they fit `maxBytes` and one more would not. */
  method PullRun(c: Client, pages: seq<Page>, a: nat, maxBytes: nat, k: nat) returns (seen: Seen, c': Client)
    requires Holds(c, pages) && !EQ.AllSourcesDone(c.queue) && 2 <= k <= |pages|
    requires forall i :: 0 <= i < |pages| ==> pages[i] == Page(a + i)
    requires k * (2 * a + k - 1) <= 2 * maxBytes
    requires k < |pages| ==> (k + 1) * (2 * a + k) > 2 * maxBytes
    ensures seen == Seen(k, false, false)
    ensures Holds(c', pages[k..]) && SameSources(c, c')
  {
    PullFromRun(c, a, maxBytes, k);
    var p := Next(c, maxBytes);
    seen, c' := See(p), p.client;
  }

  /** Pulls of 1, 5000 and 10000 bytes drain the ten test pages as 1, 4 and
      5 pages, none of them at end while a source is still open. */
  method PullTenPagesSteps(c: Client) returns (seen: seq<Seen>, c': Client)
    requires Holds(c, TenPages()) && !EQ.AllSourcesDone(c.queue)
    ensures seen == [Seen(1, false, false), Seen(4, false, false), Seen(5, false, false)]
    ensures Holds(c', []) && SameSources(c, c')
  {
    var s1, c1 := PullFirstPage(c);
    var rest := TenPages()[1..];
    assert forall i :: 0 <= i < |rest| ==> rest[i] == Page(1001 + i);
    var s2, c2 := PullRun(c1, rest, 1001, 5000, 4);
    var tail := rest[4..];
    assert forall i :: 0 <= i < |tail| ==> tail[i] == Page(1005 + i);
    var s3, c3 := PullRun(c2, tail, 1005, 10000, 5);
    assert tail[5..] == [];
    seen, c' := [s1, s2, s3], c3;
  }

  /**
   multiPageFetch: a pull before any source exists waits; with one source
   and ten pages queued, pulls of 1, 5000 and 10000 bytes return 1, 4 and 5
   pages, none at end and none with a future; after the source's end marker
   the next pull is empty, at end, and without a future.
   */
  method MultiPageFetch() returns (seen: seq<Seen>)
    ensures seen == [Seen(0, false, true), Seen(1, false, false), Seen(4, false, false),
                     Seen(5, false, false), Seen(0, true, false)]
  {
    var first, c := PullOnNewClient();
    c := AddSources(c, 1);
    c := PushPages(c, TenPages());
    var drained;
    drained, c := PullTenPagesSteps(c);
    c := PushEndMarkers(c, 1);
    var last := PullAfterEnd(c, 10000);
    seen := [first] + drained + [last];
  }

  /**
   sourceTimeout, end detection: with three sources registered no pull is
   at end while pages are drained; once all three sources have sent their
   end marker, the next pull is empty and at end.
   */
  method SourceTimeout() returns (seen: seq<Seen>)
    ensures seen == [Seen(0, false, true), Seen(0, false, true), Seen(1, false, false),
                     Seen(4, false, false), Seen(5, false, false), Seen(0, true, false)]
  {
    var first, c := PullOnNewClient();
    c := AddThreeRemoteTasks(c);
    var second;
    second, c := PullWhileEmpty(c, 1);
    c := PushPages(c, TenPages());
    var drained;
    drained, c := PullTenPagesSteps(c);
    c := PushEndMarkers(c, 3);
    var last := PullAfterEnd(c, 10000);
    seen := [first, second] + drained + [last];
  }

  /**
   callNextAfterClose: with three sources and ten pages queued a pull of
   5000 bytes returns 4 pages; after close a pull returns nothing, at end,
   with no future, though pages were still queued; closing again resumes
   nobody.
   */
  method CallNextAfterClose() returns (seen: seq<Seen>, resumedBySecondClose: seq<nat>)
    ensures seen == [Seen(0, false, true), Seen(0, false, true), Seen(4, false, false), Seen(0, true, false)]
    ensures resumedBySecondClose == []
  {
    var first, c := PullOnNewClient();
    c := AddThreeRemoteTasks(c);
    var second;
    second, c := PullWhileEmpty(c, 1);
    c := PushPages(c, TenPages());
    PullFromRun(c, 1000, 5000, 4);
    var p := Next(c, 5000);
    var third := See(p);
    c := Close(p.client).client;
    var last;
    last, c := PullAfterClose(c, 10000);
    resumedBySecondClose := Close(c).resumed;
    seen := [first, second, third, last];
  }

  /**
   largeSinglePage: with a page over 1000 bytes queued ahead of one under
   1000 bytes, each pull of one byte returns one whole page, the large one
   first.
   */
  lemma LargeSinglePage(c: Client, large: nat, small: nat)
    requires Valid(c) && !Closed(c)
    requires c.queue.pages == [MakePage(large), MakePage(small)]
    requires large > 1000 && small < 1000
    ensures Next(c, 1).pages == [MakePage(large)]
    ensures Next(Next(c, 1).client, 1).pages == [MakePage(small)]
  {
    OversizedPageAlone(c, 1);
    var p1 := Next(c, 1);
    assert p1.client.queue.pages == [MakePage(small)];
    BatchUnique(p1.client.queue.pages, 1, |Next(p1.client, 1).pages|, 1);
  }

  /** The steps of the stats test: three pages pushed, then pulled one by
      one. */
  function StatsOps(x: nat, y: nat, z: nat): seq<EQ.Op>
  {
    [EQ.Push(EQ.Data(MakePage(x))), EQ.Push(EQ.Data(MakePage(y))), EQ.Push(EQ.Data(MakePage(z))),
     EQ.Pull(1), EQ.Pull(1), EQ.Pull(1)]
  }

  /** Those steps push exactly the three pages. */
  lemma StatsOpsPushed(x: nat, y: nat, z: nat)
    ensures EQ.Pushed(StatsOps(x, y, z)) == [MakePage(x), MakePage(y), MakePage(z)]
    ensures Bytes(EQ.Pushed(StatsOps(x, y, z))) == x + y + z
  {
    var ops := StatsOps(x, y, z);
    assert ops[5..][1..] == [];
    assert EQ.Pushed(ops[5..]) == [];
    assert ops[4..][1..] == ops[5..];
    assert EQ.Pushed(ops[4..]) == [];
    assert ops[3..][1..] == ops[4..];
    assert EQ.Pushed(ops[3..]) == [];
    assert ops[2..][1..] == ops[3..];
    assert EQ.Pushed(ops[2..]) == [MakePage(z)];
    assert ops[1..][1..] == ops[2..];
    assert EQ.Pushed(ops[1..]) == [MakePage(y), MakePage(z)];
    assert EQ.Pushed(ops) == [MakePage(x), MakePage(y), MakePage(z)];
    var p := [MakePage(x), MakePage(y), MakePage(z)];
    assert p[..2][..1] == p[..1];
    assert p[..1][..0] == [];
    assert p[..3] == p && p[..3][..2] == p[..2];
    assert Bytes(p[..1]) == x;
    assert Bytes(p[..2]) == x + y;
  }

  /**
   stats: a client with one source receives three pages of any sizes and the
   consumer pulls them one by one; the client then reports a peak no larger
   than their total, three received pages, and their total divided by three
   as the average size.
   */
  method StatsScenario(x: nat, y: nat, z: nat) returns (stats: map<string, nat>)
    ensures stats.Keys == {PeakBytesKey, NumReceivedPagesKey, AverageReceivedPageBytesKey}
    ensures stats[PeakBytesKey] <= x + y + z
    ensures stats[NumReceivedPagesKey] == 3
    ensures stats[AverageReceivedPageBytesKey] == (x + y + z) / 3
  {
    var c := AddRemoteTaskId(Create(), "local://t1", Created).value;
    var ops := StatsOps(x, y, z);
    StatsOpsPushed(x, y, z);
    EQ.StatsOfRun(c.queue, ops, 0);
    stats := Stats(c.(queue := EQ.Run(c.queue, ops)));
  }

  /**
   nonVeloxCreateExchangeSourceException: when the source factory raises a
   non-engine exception, registering a task fails with a message naming the
   task id.
   */
  lemma CreateSourceFailure()
    ensures AddRemoteTaskId(Create(), "task.1.2.3", OtherError("Testing error"))
         == Failure("Failed to create ExchangeSource: Testing error. Task ID: task.1.2.3.")
  {
    ShortIdMessage();
    assert AddRemoteTaskId(Create(), "task.1.2.3", OtherError("Testing error"))
        == Failure(CreateFailureMessage("Testing error", "task.1.2.3"));
  }

  /** The message for a short task id shows the whole id. */
  lemma ShortIdMessage()
    ensures CreateFailureMessage("Testing error", "task.1.2.3")
         == "Failed to create ExchangeSource: Testing error. Task ID: task.1.2.3."
  {
    var id := "task.1.2.3";
    assert DisplayedTaskId(id) == id;
    var lead := FailurePrefix + "Testing error" + TaskIdLabel;
    assert lead == "Failed to create ExchangeSource: Testing error. Task ID: ";
    assert lead + id + "." == "Failed to create ExchangeSource: Testing error. Task ID: task.1.2.3.";
  }

  /** The same failure for a 1024-character task id shows only its first 128
      characters. */
  lemma CreateSourceFailureLongId()
    ensures AddRemoteTaskId(Create(), seq(1024, _ => 'x'), OtherError("Testing error"))
         == Failure("Failed to create ExchangeSource: Testing error. Task ID: " + seq(128, _ => 'x') + ".")
  {
    var id := seq(1024, _ => 'x');
    var shown := seq(128, _ => 'x');
    assert DisplayedTaskId(id) == shown;
    assert FailurePrefix + "Testing error" + TaskIdLabel
        == "Failed to create ExchangeSource: Testing error. Task ID: ";
    assert CreateFailureMessage("Testing error", id)
        == "Failed to create ExchangeSource: Testing error. Task ID: " + shown + ".";
    assert AddRemoteTaskId(Create(), id, OtherError("Testing error"))
        == Failure(CreateFailureMessage("Testing error", id));
  }
}

=== FILE: wrappers.dfy ===
/** Failure-carrying results for operations whose source raises an error. */
module Wrappers {

  /** Either the value an operation produced or the error it raised. */
  datatype Result<+T, +E> = Success(value: T) | Failure(error: E)
}
